=== FILE: README.md ===
# AgroGuard core, modelled in Dafny

AgroGuard is a browser application for West African farmers. It diagnoses
crop pests from a photo, runs a text chat and a live voice session with an
agronomy assistant, keeps a farm profile with market prices, and finds
nearby services. This project models the deterministic core of that
application. API replies, clock readings, random draws and browser
callbacks become inputs, and each handler becomes a pure step over an
immutable state:

- `Playback`: the live assistant's audio scheduler. Incoming 24 kHz frames
  are queued back to back on the audio clock. An interruption stops every
  playing source. Time is counted in samples (ticks at 24 kHz), so a
  frame's duration is its sample count.
- `Pcm` and `Capture`: the PCM codecs.
  - Microphone capture converts float samples to Int16 (`x * 32768`, then
    the ECMAScript ToInt16 conversion). A 4096-sample block becomes an
    8192-byte little-endian frame.
  - Speech decoding turns bytes back into Int16 samples. The browser's
    RangeError, NotSupportedError and InvalidCharacterError are modelled
    as error values.
- `LiveSession`: the live assistant's status line and active flag. It
  covers the permission probe, `startSession`, the connection callbacks
  and the effect that restores the idle prompt.
- `Dashboard`: crop-list parsing, the market-price rows, and the profile
  form handlers.
- `ResultCard`: the severity badge and its case-insensitive matching, the
  spoken summary, one-speech-at-a-time playback, and feedback.
- `Chat`: the welcome message, and the send/receive steps that build the
  request history from the messages present before the send.
- `App`: the diagnose flow (IDLE, ANALYZING, SUCCESS or ERROR, then back to
  IDLE on reset), the view chosen for each tab, and the quick-tip banner.
- `GeminiService`: normalisation of the model service's replies.
  - Grounding chunks become places.
  - Data URLs are split.
  - The analysis request config is built.
  - The fallback texts and thrown errors follow the service code.
- `Js`: the few JavaScript string built-ins the core relies on (`trim`,
  `split`, `join`, ASCII `toLowerCase`, integer `toString`, `x || y`).
  `Wrappers` holds `Option` and `Result`, and `Types` holds the records of
  types.ts.

In these places the model follows the code where a reader might expect otherwise:

- An interruption resets the next start time to 0, not to the current clock
  (`Playback.ResetToZeroMatchesResetToClock` shows this makes no observable
  difference while the audio clock only moves forward).
- Captured samples are scaled by 32768 with no clamping. `Pcm.CaptureSample`,
  `Capture.CaptureFrame` and the sent stream `Capture.CaptureStream` model
  that as written. The corrected, clamped conversion is kept apart under its
  own names (`Pcm.CaptureSampleClamped`, `Capture.CaptureStreamClamped`; see
  Findings).
- `startSession` itself does not check the microphone permission. Only the
  disabled start button does, so the model puts that guard on the button
  press.
- The analysis reply is cast to a result without any check. A reply that
  parses to a falsy value (the text `null`, say) is stored as the result and
  the state moves to SUCCESS. The result card then stays hidden, and so do
  both reset buttons, so the Diagnose tab is blank until the page reloads
  (`App.FalsyResultStrandsPage`, `App.NullReplyStrandsPage`).
- A setup failure thrown before `startSession`'s first `await` runs inside
  the click handler. The start and the failure then land in one render, so
  the active flag never changes and "Connection failed" stays on screen
  (`LiveSession.SyncSetupFailureStays`). A later failure is overwritten by
  the idle prompt (`LiveSession.EndStatusIsOverwritten`).

## Model

| member | source | states |
|---|---|---|
| Pcm.WrapInt16 | components/LiveAssistant.tsx:71-73 | storing an integer into an Int16Array keeps it modulo 2^16 in [-32768, 32767], and leaves in-range values unchanged |
| Pcm.Trunc | components/LiveAssistant.tsx:73 | conversion to an integer truncates toward zero: the result lies within one of the input, on the input's side of zero |
| Pcm.TruncMonotone | components/LiveAssistant.tsx:73 | truncation never reverses the order of two samples |
| Pcm.ToInt16 | components/LiveAssistant.tsx:71-73 | NaN and infinities store 0; a finite value stores its truncation reduced modulo 2^16, which is the truncation itself strictly inside the Int16 range |
| Pcm.CaptureSample | components/LiveAssistant.tsx:73 | a captured sample x stores trunc(x*32768) reduced modulo 2^16 (exactly trunc(x*32768) strictly inside (-1, 1)), and NaN or an infinity stores 0 |
| Pcm.CaptureSampleInRange | components/LiveAssistant.tsx:72-74 | a float sample strictly inside (-1, 1) becomes the truncation of x*32768 and keeps its sign |
| Pcm.FullScaleWraps | components/LiveAssistant.tsx:72-74 | the code as written turns +1.0 and -1.0 alike into -32768 |
| Pcm.CaptureSampleClamped | components/LiveAssistant.tsx:72-74 | the corrected conversion agrees with the code on every sample strictly inside (-1, 1) |
| Pcm.ClampedPreservesOrder | components/LiveAssistant.tsx:72-74 | the corrected conversion is monotone and sign-preserving, with +1.0 giving 32767 and -1.0 giving -32768 |
| Pcm.Unsigned | components/LiveAssistant.tsx:75 | the byte view of a sample is its two's-complement value in [0, 65536) |
| Pcm.SampleAt | components/LiveAssistant.tsx:99 | an Int16 read from two bytes has the little-endian unsigned value lo + 256*hi |
| Pcm.EncodeLE | components/LiveAssistant.tsx:75 | the byte buffer under an Int16Array is twice as long and holds each sample low byte first |
| Pcm.DecodeLE | components/LiveAssistant.tsx:99 | an even-length byte buffer viewed as Int16 gives half as many samples, each read little-endian |
| Pcm.Int16View | components/LiveAssistant.tsx:99 | the Int16Array view fails with RangeError exactly when the byte count is odd |
| Pcm.SampleRoundTrip | components/LiveAssistant.tsx:75 | splitting a sample into bytes and reading them back gives the sample |
| Pcm.BytesRoundTrip | components/LiveAssistant.tsx:99 | reading two bytes as a sample and splitting it again gives the same two bytes |
| Pcm.DecodeEncode | components/LiveAssistant.tsx:75 | every encoded sample sequence is viewed back as exactly that sequence |
| Pcm.EncodeDecode | components/LiveAssistant.tsx:99 | every even-length byte buffer is re-encoded to itself from its Int16 view |
| Pcm.DecodeSpeech | components/LiveAssistant.tsx:94-102 | odd byte counts throw RangeError, an empty buffer throws NotSupportedError, and otherwise the buffer is mono 24 kHz holding exactly the decoded samples |
| Capture.ConvertBlock | components/LiveAssistant.tsx:70-74 | the conversion loop yields a sample sequence of the same length whose i-th entry is the conversion of the i-th input |
| Capture.CaptureFrame | components/LiveAssistant.tsx:67-83 | a frame carries the mime type audio/pcm;rate=16000 and 2n bytes (8192 for a 4096-sample block) whose Int16 view is the converted block |
| Capture.CaptureStream | components/LiveAssistant.tsx:65-85 | each processed block yields one frame of its as-written conversion, in block order |
| Capture.CaptureStreamClamped | components/LiveAssistant.tsx:65-85 | the corrected stream: each block yields one frame of its clamped conversion, in block order |
| Capture.EncodeAppend | components/LiveAssistant.tsx:75 | the encoding of two runs of samples is the concatenation of their encodings |
| Capture.EncodeFlatten | components/LiveAssistant.tsx:75-79 | encoding blocks one at a time and concatenating the bytes equals encoding all their samples at once |
| Capture.StreamPayloads | components/LiveAssistant.tsx:65-85 | the payload of every frame the code sends is the little-endian encoding of its block's as-written conversion |
| Capture.StreamPreservesOrder | components/LiveAssistant.tsx:65-85 | the payloads the code sends, concatenated, are the encoding of all as-written converted samples in capture order: nothing is dropped or reordered |
| Capture.ClampedStreamPreservesOrder | components/LiveAssistant.tsx:65-85 | the same ordering guarantee for the corrected, clamped stream |
| Capture.CaptureFrameClamped | components/LiveAssistant.tsx:67-83 | with the corrected conversion a frame keeps the mime type and 2n bytes (8192 for a full block) and reads back as the clamped samples |
| Capture.SameFrameInsideFullScale | components/LiveAssistant.tsx:72-74 | a block strictly inside (-1, 1) gives the same frame under the corrected conversion as under the code as written |
| Playback.InitialValid | components/LiveAssistant.tsx:55-56 | the empty schedule (next start 0, no sources) satisfies the scheduler invariant |
| Playback.HandlesAppend | components/LiveAssistant.tsx:111 | appending a slot adds exactly its source to the set of scheduled sources |
| Playback.Enqueue | components/LiveAssistant.tsx:108-111 | a frame starts at max(clock, next start), the next start moves to its end, the source joins the active set, and the invariant is kept |
| Playback.Flush | components/LiveAssistant.tsx:116-119 | an interruption stops exactly the active sources, empties the set, resets the next start to 0, and keeps the invariant |
| Playback.HasAudio | components/LiveAssistant.tsx:91-92 | a message carries audio exactly when the first part has inline data that is a non-empty string |
| Playback.DecodePayload | components/LiveAssistant.tsx:94-100 | undecodable base64 throws InvalidCharacterError, an odd byte count RangeError and no bytes NotSupportedError; decoding succeeds exactly for an even, non-zero byte count, giving a mono 24000 Hz buffer of one sample per two bytes whose little-endian encoding is the decoded bytes |
| Playback.OnMessage | components/LiveAssistant.tsx:90-121 | no audio and no interruption changes nothing; a throw changes nothing and skips the interruption; audio starts one source at max(clock, next start); an interruption stops every source including the one just started; the invariant is kept |
| Playback.OnEnded | components/LiveAssistant.tsx:113 | an ended source leaves the active set and nothing else changes; a source already cleared changes nothing |
| Playback.RunPreservesValid | components/LiveAssistant.tsx:90-121 | every sequence of messages and end events keeps the scheduler invariant (ordered, non-overlapping slots, active sources scheduled) |
| Playback.RunMonotone | components/LiveAssistant.tsx:108-110 | without interruptions the next start never moves back and the timeline only grows |
| Playback.BurstIsGapless | components/LiveAssistant.tsx:108-110 | without interruptions, frames that each arrive no later than the end of the audio queued before them play back to back, each starting where the previous one ends, and earlier slots are kept |
| Playback.RestartAtClock | components/LiveAssistant.tsx:108-119 | after an interruption the next frame starts at the clock of its arrival |
| Playback.ResetToZeroMatchesResetToClock | components/LiveAssistant.tsx:119 | resetting the next start to 0 schedules the next frame exactly as resetting it to the clock would, since the clock never goes back |
| Playback.ThreeFramesThenInterrupt | components/LiveAssistant.tsx:90-121 | three half-second frames arriving at ticks 0, 2400 and 4800 (0, 0.1 and 0.2 s) occupy [0, 0.5), [0.5, 1) and [1, 1.5) s, and an interruption at 0.3 s stops all three |
| LiveSession.Handle | components/LiveAssistant.tsx:23-145 | the microphone probe settles a pending permission: a grant sets Granted and keeps the status, a refusal sets Denied and shows "Microphone permission denied", and nothing else changes the permission; a start without an API key, while active or without permission does nothing, and otherwise goes active with "Connecting..."; the callbacks set "Listening...", "Session ended", "Error connecting to expert" and "Connection failed" with their active flags; a setup failure thrown before the first await leaves the active flag as it was and shows only "Connection failed" |
| LiveSession.Settle | components/LiveAssistant.tsx:35-39 | when the active flag or the language changed and the session is inactive, the status returns to the idle prompt; otherwise nothing changes |
| LiveSession.RunKeepsConsistent | components/LiveAssistant.tsx:41-146 | under every sequence of signals an active session has permission and shows "Connecting..." or "Listening..." |
| LiveSession.EndStatusIsOverwritten | components/LiveAssistant.tsx:122-145 | an active session that closes, errors or fails setup after the first await ends inactive with the idle prompt, because the effect overwrites the end status |
| LiveSession.SyncSetupFailureStays | components/LiveAssistant.tsx:41-51 | a setup throw before the first await is batched with the start: the active flag stays false, the effect does not run, and "Connection failed" stays, unlike an asynchronous failure |
| LiveSession.LateCloseStays | components/LiveAssistant.tsx:122-125 | a close that arrives while already inactive leaves "Session ended" on screen |
| LiveSession.StartNeedsPermission | components/LiveAssistant.tsx:163-166 | from idle, pressing start activates the session exactly when a key is set and permission was granted, showing "Connecting..." |
| Dashboard.TrimAll | components/Dashboard.tsx:57 | every comma-separated piece is trimmed in place |
| Dashboard.NonEmptyFrom | components/Dashboard.tsx:57 | the filter keeps only non-empty pieces, each taken from the list |
| Dashboard.ParseCrops | components/Dashboard.tsx:57 | an empty crop field gives Maize, Cassava and Yam; otherwise at most one crop per comma plus one, each non-empty, trimmed and comma-free |
| Dashboard.KeptFrom | components/Dashboard.tsx:57 | the positions from `from` on that the filter keeps all lie in range from `from` |
| Dashboard.NonEmptyPicksKept | components/Dashboard.tsx:57 | the filter's output is the pieces at the kept positions, one for one |
| Dashboard.KeptIncreasing | components/Dashboard.tsx:57 | kept positions are strictly increasing |
| Dashboard.KeptExactly | components/Dashboard.tsx:57 | a position is kept exactly when its trimmed piece is non-empty |
| Dashboard.ParseCropsKeepsOrder | components/Dashboard.tsx:57 | the parsed crops are exactly the non-empty trimmed pieces in their original order |
| Dashboard.NonEmptyOfBlank | components/Dashboard.tsx:57 | the filter removes a list of empty pieces entirely |
| Dashboard.OnlySeparatorsGiveNoCrops | components/Dashboard.tsx:57 | a non-empty field of only commas and whitespace gives no crops, not the defaults |
| Dashboard.MarketRows | components/Dashboard.tsx:59-63 | one row per crop, in order, priced 300 to 499 thousand naira, trending up exactly when the draw exceeded one half |
| Dashboard.PriceLabel | components/Dashboard.tsx:61 | the price text starts with the naira sign and ends with ",000/T" |
| Dashboard.PriceLabelShowsPrice | components/Dashboard.tsx:61 | the label is the naira sign, three digits whose value is the price, and ",000/T" |
| Dashboard.Put | components/Dashboard.tsx:75 | a named form field gets the new value and every other field keeps its value |
| Dashboard.Mount | components/Dashboard.tsx:32-43 | a stored profile is loaded, and none gives the empty profile in edit mode; there is one market row per parsed crop of the profile, showing that crop in order (Maize, Cassava and Yam without a stored profile) |
| Dashboard.HandleChange | components/Dashboard.tsx:74-77 | editing a field changes only that field and clears the saved notice |
| Dashboard.HandleSave | components/Dashboard.tsx:79-86 | saving keeps the profile, shows the saved notice, leaves edit mode, and reprices exactly the parsed crops in order |
| Dashboard.SavedTimeout | components/Dashboard.tsx:85 | the timeout only hides the saved notice |
| Dashboard.ToggleEditing | components/Dashboard.tsx:114 | the profile button flips edit mode and changes nothing else |
| Dashboard.Geolocated | components/Dashboard.tsx:91-93 | a position fills the farm location and nothing else |
| Dashboard.ChangeThenRestore | components/Dashboard.tsx:74-77 | typing a field's old value back restores the whole profile |
| ResultCard.LevelOf | components/ResultCard.tsx:20-35 | the shared `switch (severity.toLowerCase())` picks a level exactly when the lower-cased severity is "high", "medium" or "low", and a picked severity has that name's length |
| ResultCard.LevelIgnoresCase | components/ResultCard.tsx:22 | a severity reads as high, medium or low exactly when it equals that word ignoring case |
| ResultCard.SameIgnoringCaseIffLower | components/ResultCard.tsx:22 | for a lower-case key, matching ignoring case is the same as lower-casing and comparing |
| ResultCard.SeverityColor | components/ResultCard.tsx:21-28 | the red, yellow and green classes go exactly to high, medium and low, and the grey class to everything else |
| ResultCard.SeverityLabel | components/ResultCard.tsx:30-37 | a recognised severity shows its localised label, and any other text shows as it is |
| ResultCard.BadgeIgnoresCase | components/ResultCard.tsx:93-94 | two severities equal up to case get the same badge colour, and the same label when recognised |
| ResultCard.SpokenText | components/ResultCard.tsx:44 | the spoken text begins with the diagnosis title, the pest name and ". ", continues with the severity title, the localised severity label and the description, and ends with the treatments joined by ". " |
| ResultCard.PressSpeak | components/ResultCard.tsx:39-45 | a press while playing does nothing; otherwise playback starts and the spoken text is requested; feedback is untouched |
| ResultCard.SpeechArrived | components/ResultCard.tsx:45-67 | decodable audio yields a mono 24 kHz buffer and keeps playing; a failed or undecodable reply stops playing |
| ResultCard.PlaybackEnded | components/ResultCard.tsx:63 | the end of playback only clears the playing flag |
| ResultCard.OneSpeechAtATime | components/ResultCard.tsx:39-41 | after one press starts a request, a second press requests nothing until the first reply or end arrives |
| ResultCard.Choose | components/ResultCard.tsx:167-177 | a thumb vote records that vote and nothing else |
| ResultCard.EditComment | components/ResultCard.tsx:192 | typing a comment records it and nothing else |
| ResultCard.SubmitFeedback | components/ResultCard.tsx:70-77 | the report is positive exactly when the vote is up, carries the comment and the pest name, and only the submitted flag changes |
| Chat.Welcome | components/ChatInterface.tsx:20-29 | an empty chat gets the model's welcome message with id "1"; a non-empty chat is left alone |
| Chat.History | components/ChatInterface.tsx:45-48 | one turn per message, with role "model" for model messages and "user" for every other role, carrying the message text as its only part |
| Chat.HistoryAppend | components/ChatInterface.tsx:45-48 | the history of two runs of messages is the concatenation of their histories |
| Chat.Send | components/ChatInterface.tsx:35-50 | whitespace-only input or a pending reply sends nothing; otherwise the user message is appended, the input cleared, loading set, and the request carries the history of the messages before the send |
| Chat.SendGuardIsTrim | components/ChatInterface.tsx:37 | a send does something exactly when the trimmed input is non-empty and no reply is pending, and otherwise changes nothing |
| Chat.Receive | components/ChatInterface.tsx:50-63 | exactly one model message is appended: the reply, the fallback text for an empty reply, or the error text; loading ends |
| Chat.ExchangeExtendsHistory | components/ChatInterface.tsx:35-64 | after one exchange, the next request's history is the old history plus the user turn and the model turn |
| Js.IsWhitespace | components/ChatInterface.tsx:37 | the characters `trim()` strips: ECMAScript WhiteSpace and LineTerminator (tab to carriage return, the Zs space separators, the byte order mark, and U+2028 and U+2029) |
| Js.Trim | components/ChatInterface.tsx:37 | `trim()` gives a string with no whitespace at either end, never longer than its input |
| Js.TrimIsSlice | components/ChatInterface.tsx:37 | a trimmed string is a contiguous piece of the original, and everything cut from either end is whitespace |
| Js.TrimEmptyIffBlank | components/ChatInterface.tsx:37 | a string trims to empty exactly when it is all whitespace |
| Js.TrimIdempotent | components/Dashboard.tsx:57 | trimming twice is trimming once |
| Js.Split | components/Dashboard.tsx:57 | a split gives one piece more than there are separators, and no piece contains the separator |
| Js.JoinSplit | components/Dashboard.tsx:57 | joining the pieces of a split with the separator gives back the original |
| Js.JoinEnds | components/ResultCard.tsx:44 | `join` of a non-empty array starts with its first piece and ends with its last |
| Js.SplitAtFirst | services/geminiService.ts:18 | the first piece of a split is everything before the first separator |
| Js.Lower | components/ResultCard.tsx:22 | lower-casing keeps the length and maps each character independently |
| Js.LowerIgnoresCase | components/ResultCard.tsx:22 | strings equal ignoring case lower-case to the same string |
| Js.Decimal | components/ChatInterface.tsx:39 | a timestamp renders as a non-empty digit string without a leading zero |
| Js.DecimalRoundTrip | components/ChatInterface.tsx:39 | the digits of a message id read back as its timestamp |
| Js.OrElse | components/ChatInterface.tsx:55 | `x \|\| fallback` gives the fallback exactly when x is missing or empty (or is the fallback), and x otherwise |
| GeminiService.GetClient | services/geminiService.ts:5-11 | a client is made exactly when the API key is a non-empty string; otherwise the missing-key error is thrown |
| GeminiService.DataPayload | services/geminiService.ts:13-24 | the payload of a data URL exists exactly when the URL has a comma, and has no comma |
| GeminiService.DataPayloadBetweenCommas | services/geminiService.ts:18 | the payload is the text between the first and second commas |
| GeminiService.PickSource | services/geminiService.ts:151 | `c.maps \|\| c.web` takes the maps source whenever there is one and the web source otherwise, and gives none only when both are missing |
| GeminiService.GroundingChunks | services/geminiService.ts:150 | the chunk list is there only when the first candidate and its grounding metadata both are |
| GeminiService.ValidPlaces | services/geminiService.ts:150-152 | at most one place per chunk, each with a non-empty title and link |
| GeminiService.PlacesAppend | services/geminiService.ts:150-152 | places keep chunk order: two runs of chunks give the first run's places followed by the second's |
| GeminiService.OneChunk | services/geminiService.ts:151-152 | a chunk gives a place exactly when its chosen entry has a title and link; a maps entry hides the web entry even when unusable |
| GeminiService.FindAgroServices | services/geminiService.ts:127-158 | missing key and call errors throw; the text falls back to "I found some locations for you."; the places are those of the first candidate's chunks, or none |
| GeminiService.AnalysisRequestConfig | services/geminiService.ts:61-68 | the request always asks for JSON in the analysis schema, and carries a 32768-token thinking budget exactly when deep thinking is on |
| GeminiService.AnalyzePestImage | services/geminiService.ts:44-88 | no key fails with the missing-key error, a failed call with its error, empty text with "No response from AI", and text that is not JSON with a parse error; otherwise the parsed value is returned unchecked, a falsy one as None and a result object as itself |
| GeminiService.FirstPart | services/geminiService.ts:207 | the first part of the first candidate's content, present only when every link of the chain is |
| GeminiService.FirstInlineData | services/geminiService.ts:177 | the first part's inline data string, present only when the part and its inline data are |
| GeminiService.GenerateSpeech | services/geminiService.ts:161-180 | speech succeeds exactly when the first part has non-empty inline data, which it returns; otherwise "No audio generated" is thrown |
| GeminiService.EditCropImage | services/geminiService.ts:183-212 | an image part gives a PNG data URL of its data ("undefined" when the data is missing); no image part throws "Image generation failed" |
| GeminiService.EditedImageRoundTrip | services/geminiService.ts:207-211 | the payload read back from an edited image's data URL is the data the model returned |
| GeminiService.GetQuickTip | services/geminiService.ts:91-104 | the tip is never empty: the reply text, "Keep your farm clean to prevent pests." for an empty reply, and "Regularly scout your fields for early signs of damage." on any error |
| GeminiService.ChatWithExpert | services/geminiService.ts:107-124 | the reply text is returned as it is, and a missing key or failed call throws |
| App.SelectImage | App.tsx:32-38 | no file changes nothing; a file sets the image and preview, moves to ANALYZING, clears the error, and requests an analysis with thinking exactly when the switch is on |
| App.AnalysisDone | App.tsx:40-48 | success stores whatever value the service returned, a falsy one included, and moves to SUCCESS; failure stores "Failed to analyze image. Please try again." and moves to ERROR; the image is kept |
| App.Reset | App.tsx:51-59 | reset returns to IDLE with file, preview, result and error cleared, and revokes the preview URL exactly when there was one |
| App.ResetIdempotent | App.tsx:51-59 | a second reset revokes nothing and changes nothing |
| App.DiagnosePanel | App.tsx:66-92 | the uploader shows exactly in IDLE, the spinner in ANALYZING, the error notice in ERROR, and the result card exactly in SUCCESS with both a result and a preview |
| App.RenderContent | App.tsx:61-102 | the Diagnose tab shows the diagnose panel, and every other tab shows something else |
| App.EachTabOneView | App.tsx:61-102 | every tab selects its own view, and different tabs select different views |
| App.Step | App.tsx:32-102 | tabs and language switch anywhere and change nothing else; the thinking switch and a file choice act only on the Diagnose tab in IDLE, where the switch sets deep thinking and the file starts an analysis; a settlement acts only while ANALYZING; reset acts exactly from the shown error notice or result card on the Diagnose tab, and never from a SUCCESS without a result |
| App.StepKeepsConsistent | App.tsx:32-102 | every page event keeps the flow invariant: IDLE holds nothing, every other state holds an image and a preview, ERROR holds the fixed message |
| App.RunKeepsConsistent | App.tsx:32-102 | every sequence of page events keeps the flow invariant |
| App.CardShowsExactlyWithResult | App.tsx:84 | in every reachable state on the Diagnose tab the result card shows exactly in SUCCESS with a result, and ERROR shows the fixed message |
| App.FalsyResultStrandsPage | App.tsx:40-92 | a SUCCESS holding a falsy result shows nothing on the Diagnose tab and no event ever leaves it: it stays in SUCCESS with no result and the same image |
| App.NullReplyStrandsPage | App.tsx:32-92 | picking a file whose reply parses to a falsy value leaves the Diagnose tab blank after every later sequence of events |
| App.PickAnalyseReset | App.tsx:32-59 | picking a file that analyses successfully shows its preview with the result, and a reset revokes that preview and returns to the starting state |
| App.TipBanner | App.tsx:109 | the banner is never empty, and shows the tip whenever there is one |
| App.TipArrivedNeverLoading | App.tsx:27-30 | once the tip request settles, the banner shows the service's tip unchanged |

## Left out

- Network, microphone, camera, speakers, `localStorage`, timers and object URLs are left out. Their results are inputs: API replies, `atob` output, clock readings, stored profiles and preview URLs.
- Base64 encoding (`btoa`, `atob`) is left out. A payload carries its decoded bytes, or None where `atob` would throw.
- Floating-point division by 32768.0 on playback and the float sum of `nextStartTime` are left out. Time is an integer count of 24 kHz samples, so durations add exactly.
- `JSON.parse` of the analysis text is left out. Its outcome is an input (`GeminiService.Parsed`): a syntax error, a falsy value, or a result object.
- A reply that parses to a truthy value that is not an analysis object (a number, an array or a string) is left out. The card would render it with undefined fields, and the model takes every truthy parse to be a result object.
- The prompt texts, system instructions, model names and translation tables are left out. Localised labels are parameters (`ResultCard.Labels`, the chat welcome text), and the idle prompt is one status value.
- The Dashboard yield estimate, weather simulation and currency formatting are left out. They are placeholder arithmetic on floats and random numbers, and only the market rows are modelled.
- The unused `places` list in `findAgroServices` (lines 143-148) is left out, since it is computed and discarded.
- The End-call button reloads the page, so it is not a transition of the model.
- The MapFinder, ImageEditor, ImageUploader and LoadingSpinner components are not part of this model. They only appear as views chosen by `App.RenderContent`.
- `console.log`, `console.error` and `alert` calls are left out.
- Concurrency between overlapping async handlers is left out. Each settlement is a separate event applied in arrival order. `App.Step` admits an analysis settlement only while ANALYZING, which matches the page because the uploader shows only in IDLE.
- Js.Lower: folds ASCII letters only, while `toLowerCase` also folds non-ASCII letters. The only non-ASCII character that lower-cases to a single ASCII letter is the Kelvin sign (to "k"), which none of "high", "medium" and "low" contains, so severity matching is unaffected.
- Playback.OnMessage: does not model the null check on the output context. It is assigned before the connection opens, so it is never null when a message arrives.
- Dashboard.MarketRows: the random draws are inputs, not `Math.random()` values. Each draw is an integer in [0, 200), standing for `Math.floor(Math.random() * 200)`, plus a rising flag; the row adds the 300.
- Pcm.EncodeLE: the byte view `new Uint8Array(int16.buffer)` uses the platform's byte order. The model fixes it to little-endian, the order of every mainstream browser platform; a big-endian host would send the bytes of each sample swapped.
- The numeric `confidence` field of an analysis result (types.ts:12, a floating-point number in the response schema) is left out. Nothing in the core reads or shows it.
- Chat.Send: the message timestamp is the clock's millisecond value, not a `Date` object.

## Findings

| source | as written | input that shows it | evidently intended | confidence | as-written member | corrected member |
|---|---|---|---|---|---|---|
| components/LiveAssistant.tsx:72-74 | each float sample is multiplied by 32768 and stored into an Int16Array, which wraps modulo 2^16 | a full-scale sample of 1.0 gives 32768, which is stored as -32768, so a loud positive peak flips to the most negative value (and -1.0 also gives -32768) | scale with clamping to [-32768, 32767], so +1.0 gives 32767 and the conversion preserves order and sign | not executed | Pcm.FullScaleWraps | Pcm.ClampedPreservesOrder |

=== FILE: app.dfy ===
/** The diagnose flow and the tab switch of the top-level component
    (App.tsx): the handlers as pure steps, and the view `renderContent`
    picks for a state. */
module App {
  import opened Wrappers
  import opened Types
  import GeminiService

  datatype State = State(
    tab: Tab,
    appState: AppState,
    image: ImageState,
    result: Option<AnalysisResult>,
    error: Option<string>,
    deepThinking: bool,
    language: Language)

  const NoImage: ImageState := ImageState(None, None)

  /** Lines 16-23: the first render. */
  const Initial: State := State(Diagnose, Idle, NoImage, None, None, false, En)

  const AnalysisFailedText: string := "Failed to analyze image. Please try again."

  /** What `handleImageSelect` asks the service to analyse. */
  datatype AnalysisRequest = AnalysisRequest(file: FileRef, config: GeminiService.AnalysisConfig, language: Language)

  /** Lines 32-38: choosing a file shows its preview, starts the analysis
      and clears the last error; the previous result stays until the
      analysis ends. No file changes nothing and requests nothing. The
      object URL the browser makes for the file is `previewUrl`. */
  function SelectImage(s: State, file: Option<FileRef>, previewUrl: string): (r: (State, Option<AnalysisRequest>))
    ensures file.None? ==> r == (s, None)
    ensures file.Some? ==>
              r.0.image == ImageState(file, Some(previewUrl))
              && r.0.appState == Analyzing && r.0.error.None?
              && r.0.result == s.result && r.0.tab == s.tab
              && r.0.deepThinking == s.deepThinking && r.0.language == s.language
    ensures r.1.Some? <==> file.Some?
    ensures r.1.Some? ==> r.1.value.file == file.value && r.1.value.language == s.language
                          && (r.1.value.config.thinkingConfig.Some? <==> s.deepThinking)
  {
    match file
    case None => (s, None)
    case Some(f) =>
      (s.(image := ImageState(file, Some(previewUrl)), appState := Analyzing, error := None),
       Some(AnalysisRequest(f, GeminiService.AnalysisRequestConfig(s.deepThinking), s.language)))
  }

  /** Lines 40-48: the analysis settles. Whatever value the service returned
      is stored, a falsy one included, and the state moves to SUCCESS; any
      thrown error becomes one fixed message. The image is kept either way. */
  function AnalysisDone(s: State, outcome: Result<Option<AnalysisResult>, GeminiService.ServiceError>): (r: State)
    ensures outcome.Success? ==> r.appState == Succeeded && r.result == outcome.value && r.error == s.error
    ensures outcome.Failure? ==> r.appState == Errored && r.error == Some(AnalysisFailedText) && r.result == s.result
    ensures r.image == s.image && r.tab == s.tab && r.language == s.language && r.deepThinking == s.deepThinking
  {
    match outcome
    case Success(analysis) => s.(result := analysis, appState := Succeeded)
    case Failure(_) => s.(error := Some(AnalysisFailedText), appState := Errored)
  }

  /** Lines 51-59: reset clears the image, result and error and returns to
      IDLE; it gives back the preview URL to revoke, exactly when there was
      one. The tab, language and thinking switch are untouched. */
  function Reset(s: State): (r: (State, Option<string>))
    ensures r.0.appState == Idle && r.0.image == NoImage && r.0.result.None? && r.0.error.None?
    ensures r.0.tab == s.tab && r.0.language == s.language && r.0.deepThinking == s.deepThinking
    ensures r.1 == s.image.previewUrl
  {
    (s.(image := NoImage, result := None, error := None, appState := Idle), s.image.previewUrl)
  }

  /** Resetting twice revokes nothing the second time and changes nothing. */
  lemma ResetIdempotent(s: State)
    ensures Reset(Reset(s).0) == (Reset(s).0, None)
  {
  }

  /** What the Diagnose tab shows for the current flow state. */
  datatype Panel =
    | Uploader(deepThinking: bool)
    | Spinner
    | ResultView(result: AnalysisResult, imageUrl: string)
    | ErrorNotice(message: Option<string>)

  datatype View =
    | DiagnoseView(panel: Option<Panel>)
    | ChatView
    | LiveView
    | MapsView
    | EditorView
    | DashboardView

  /** Lines 66-92: the four guarded blocks of the Diagnose tab; at most one
      of them can hold, and a SUCCESS without both a result and a preview
      shows nothing. */
  function DiagnosePanel(s: State): (p: Option<Panel>)
    ensures p.Some? && p.value.ResultView? <==>
              s.appState == Succeeded && s.result.Some? && s.image.previewUrl.Some?
    ensures p.Some? && p.value.ResultView? ==> p.value == ResultView(s.result.value, s.image.previewUrl.value)
    ensures p.Some? && p.value.Uploader? <==> s.appState == Idle
    ensures p.Some? && p.value.Spinner? <==> s.appState == Analyzing
    ensures p.Some? && p.value.ErrorNotice? <==> s.appState == Errored
    ensures p.Some? && p.value.ErrorNotice? ==> p.value.message == s.error
  {
    match s.appState
    case Idle => Some(Uploader(s.deepThinking))
    case Analyzing => Some(Spinner)
    case Succeeded =>
      if s.result.Some? && s.image.previewUrl.Some? then
        Some(ResultView(s.result.value, s.image.previewUrl.value))
      else None
    case Errored => Some(ErrorNotice(s.error))
  }

  /** Lines 61-102: the content for the active tab. */
  function RenderContent(s: State): (v: View)
    ensures v.DiagnoseView? <==> s.tab == Diagnose
    ensures v.DiagnoseView? ==> v.panel == DiagnosePanel(s)
  {
    match s.tab
    case Diagnose => DiagnoseView(DiagnosePanel(s))
    case Chat => ChatView
    case Live => LiveView
    case Maps => MapsView
    case Editor => EditorView
    case DashboardTab => DashboardView
  }

  /** The tab a view belongs to. */
  function TabOf(v: View): Tab {
    match v
    case DiagnoseView(_) => Diagnose
    case ChatView => Chat
    case LiveView => Live
    case MapsView => Maps
    case EditorView => Editor
    case DashboardView => DashboardTab
  }

  /** Every tab selects its own view, and different tabs select different
      kinds of view. */
  lemma EachTabOneView(s: State, t: State)
    ensures TabOf(RenderContent(s)) == s.tab
    ensures s.tab != t.tab ==> RenderContent(s) != RenderContent(t)
  {
  }

  /** The header's tab buttons, the thinking checkbox, the language select
      and the two async completions, as the events that drive the page. */
  datatype Event =
    | SelectTab(tab: Tab)
    | SetThinking(on: bool)
    | SetLanguage(language: Language)
    | ChooseFile(file: Option<FileRef>, previewUrl: string)
    | Settle(outcome: Result<Option<AnalysisResult>, GeminiService.ServiceError>)
    | PressReset

  /** One event, offered only where the page offers it: the uploader and the
      checkbox exist in the Diagnose tab while IDLE (so one analysis at a
      time is in flight), the analysis settles only while ANALYZING, and the
      reset buttons live on the result card and the error notice. */
  function Step(s: State, e: Event): (r: State)
    // Tabs and language switch anywhere and touch nothing else.
    ensures e.SelectTab? ==> r == s.(tab := e.tab)
    ensures e.SetLanguage? ==> r == s.(language := e.language)
    // The uploader and the thinking switch act only on the Diagnose tab in IDLE.
    ensures (e.ChooseFile? || e.SetThinking?) && !(s.tab == Diagnose && s.appState == Idle) ==> r == s
    ensures e.SetThinking? && s.tab == Diagnose && s.appState == Idle ==> r == s.(deepThinking := e.on)
    ensures e.ChooseFile? && s.tab == Diagnose && s.appState == Idle ==>
              r == SelectImage(s, e.file, e.previewUrl).0
    // A settlement counts only while an analysis is in flight.
    ensures e.Settle? ==> r == (if s.appState == Analyzing then AnalysisDone(s, e.outcome) else s)
    // Reset is offered by the error notice and the result card only.
    ensures e.PressReset? ==> r == s || r == Reset(s).0
    ensures e.PressReset? && (s.tab != Diagnose || s.appState == Idle || s.appState == Analyzing) ==> r == s
    ensures e.PressReset? && s.tab == Diagnose && s.appState == Errored ==> r == Reset(s).0
    ensures e.PressReset? && s.tab == Diagnose && DiagnosePanel(s).Some? && DiagnosePanel(s).value.ResultView? ==>
              r == Reset(s).0
    ensures e.PressReset? && s.appState == Succeeded && s.result.None? ==> r == s
  {
    var panel := DiagnosePanel(s);
    match e
    case SelectTab(t) => s.(tab := t)
    case SetThinking(on) =>
      if s.tab == Diagnose && s.appState == Idle then s.(deepThinking := on) else s
    case SetLanguage(l) => s.(language := l)
    case ChooseFile(f, url) =>
      if s.tab == Diagnose && s.appState == Idle then SelectImage(s, f, url).0 else s
    case Settle(outcome) =>
      if s.appState == Analyzing then AnalysisDone(s, outcome) else s
    case PressReset =>
      if s.tab == Diagnose && panel.Some? && (panel.value.ResultView? || panel.value.ErrorNotice?)
      then Reset(s).0 else s
  }

  function Run(s: State, events: seq<Event>): State
    decreases |events|
  {
    if |events| == 0 then s else Run(Step(s, events[0]), events[1..])
  }

  /** The flow invariant: IDLE holds nothing; every other state has a
      preview; ERROR has the fixed message. */
  predicate Consistent(s: State) {
    (s.appState == Idle ==> s.image == NoImage && s.result.None? && s.error.None?)
    && (s.appState != Idle ==> s.image.file.Some? && s.image.previewUrl.Some?)
    && (s.appState == Errored ==> s.error == Some(AnalysisFailedText))
  }

  lemma StepKeepsConsistent(s: State, e: Event)
    requires Consistent(s)
    ensures Consistent(Step(s, e))
  {
  }

  /** From the first render, every reachable state is consistent. */
  lemma {:induction false} RunKeepsConsistent(s: State, events: seq<Event>)
    requires Consistent(s)
    ensures Consistent(Run(s, events))
    decreases |events|
  {
    if |events| > 0 {
      StepKeepsConsistent(s, events[0]);
      RunKeepsConsistent(Step(s, events[0]), events[1..]);
    }
  }

  /** On the Diagnose tab of a reachable state the result card shows exactly
      in SUCCESS with a result (the preview is always there), and the error
      notice always carries the fixed message. */
  lemma CardShowsExactlyWithResult(events: seq<Event>)
    ensures var s := Run(Initial, events);
            s.tab == Diagnose ==>
              ((RenderContent(s).panel.Some? && RenderContent(s).panel.value.ResultView?)
                 <==> s.appState == Succeeded && s.result.Some?)
              && (s.appState == Errored ==> RenderContent(s).panel == Some(ErrorNotice(Some(AnalysisFailedText))))
  {
    RunKeepsConsistent(Initial, events);
  }

  /** A SUCCESS holding a falsy result shows nothing on the Diagnose tab, and
      no event leaves it: the uploader and the checkbox need IDLE, a
      settlement needs ANALYZING, and both reset buttons are hidden. */
  lemma {:induction false} FalsyResultStrandsPage(s: State, events: seq<Event>)
    requires s.appState == Succeeded && s.result.None?
    ensures var t := Run(s, events);
            t.appState == Succeeded && t.result.None? && t.image == s.image && DiagnosePanel(t).None?
    decreases |events|
  {
    if |events| > 0 {
      var s1 := Step(s, events[0]);
      assert s1.appState == Succeeded && s1.result.None? && s1.image == s.image;
      FalsyResultStrandsPage(s1, events[1..]);
    }
  }

  /** A reply whose text parses to a falsy value (the text `null`, say) does
      exactly that: after picking a file, the Diagnose tab stays blank for
      every later sequence of events. */
  lemma NullReplyStrandsPage(s: State, f: FileRef, url: string, apiKey: Option<string>,
                             reply: Result<GeminiService.Response, string>, events: seq<Event>)
    requires s.tab == Diagnose && s.appState == Idle
    requires GeminiService.Truthy(apiKey) && reply.Success? && GeminiService.Truthy(reply.value.text)
    ensures var outcome := GeminiService.AnalyzePestImage(apiKey, reply, GeminiService.FalsyJson);
            var s1 := Step(Step(s, ChooseFile(Some(f), url)), Settle(outcome));
            s1.appState == Succeeded && RenderContent(s1) == DiagnoseView(None)
            && RenderContent(Run(s1, events).(tab := Diagnose)) == DiagnoseView(None)
  {
    var outcome := GeminiService.AnalyzePestImage(apiKey, reply, GeminiService.FalsyJson);
    assert outcome == Success(None);
    var s1 := Step(Step(s, ChooseFile(Some(f), url)), Settle(outcome));
    FalsyResultStrandsPage(s1, events);
  }

  /** A picked file followed by a successful analysis shows that file's
      preview with the result; a reset afterwards revokes that preview. */
  lemma PickAnalyseReset(s: State, f: FileRef, url: string, analysis: AnalysisResult)
    requires s.tab == Diagnose && s.appState == Idle
    ensures var s1 := Step(Step(s, ChooseFile(Some(f), url)), Settle(Success(Some(analysis))));
            RenderContent(s1) == DiagnoseView(Some(ResultView(analysis, url)))
            && Reset(s1).1 == Some(url)
            && Step(s1, PressReset) == s.(image := NoImage, result := None, error := None)
  {
  }

  const TipPlaceholder: string := "Loading..."

  /** Line 109: the banner shows the tip, or a placeholder while it is
      still empty. */
  function TipBanner(quickTip: string): (r: string)
    ensures r != ""
    ensures quickTip != "" ==> r == quickTip
  {
    if quickTip == "" then TipPlaceholder else quickTip
  }

  /** Lines 27-30 with the service's fallbacks: once a tip has arrived the
      banner shows it as it is, whatever the reply was, since the service
      never returns an empty tip. */
  lemma TipArrivedNeverLoading(apiKey: Option<string>, reply: Result<GeminiService.Response, string>)
    ensures TipBanner(GeminiService.GetQuickTip(apiKey, reply)) == GeminiService.GetQuickTip(apiKey, reply)
  {
    var tip := GeminiService.GetQuickTip(apiKey, reply);
    if !GeminiService.Truthy(apiKey) || reply.Failure? {
      assert tip == GeminiService.TipErrorFallback;
    } else {
      var t := reply.value.text;
      assert tip == (if t.Some? && t.value != "" then t.value else GeminiService.TipFallback);
    }
  }
}

=== FILE: capture.dfy ===
/** The live assistant's microphone path (the `onaudioprocess` callback of
    components/LiveAssistant.tsx): each block of float samples becomes an
    Int16Array, whose bytes are sent as one `audio/pcm;rate=16000` frame. The
    base64 text of the frame is represented by the bytes it encodes. */
module Capture {
  import opened Wrappers
  import Pcm

  /** Samples per block delivered by the ScriptProcessor. */
  const BlockSize: nat := 4096

  const MimeType: string := "audio/pcm;rate=16000"

  /** One realtime input sent to the session. */
  datatype Frame = Frame(mimeType: string, data: seq<Pcm.Byte>)

  /** The Int16 values of a block, converted as the source does. */
  function Converted(block: seq<Pcm.Number>): (r: seq<Pcm.Int16>)
    ensures |r| == |block|
  {
    seq(|block|, i requires 0 <= i < |block| => Pcm.CaptureSample(block[i]))
  }

  /** The Int16 values of a block under the corrected, saturating
      conversion (see `Pcm.CaptureSampleClamped`). */
  function Clamped(block: seq<Pcm.Number>): (r: seq<Pcm.Int16>)
    ensures |r| == |block|
  {
    seq(|block|, i requires 0 <= i < |block| => Pcm.CaptureSampleClamped(block[i]))
  }

  /** A block strictly inside full scale. */
  predicate InsideFullScale(block: seq<Pcm.Number>) {
    forall i :: 0 <= i < |block| ==> block[i].Finite? && -1.0 < block[i].value < 1.0
  }

  /** Lines 70-74: the conversion loop, element by element into a fresh
      Int16Array of the block's length. */
  method ConvertBlock(input: seq<Pcm.Number>) returns (out: seq<Pcm.Int16>)
    ensures |out| == |input|
    ensures forall i :: 0 <= i < |input| ==> out[i] == Pcm.CaptureSample(input[i])
    ensures out == Converted(input)
  {
    var int16 := seq(|input|, i => 0);
    var i := 0;
    while i < |input|
      invariant 0 <= i <= |input|
      invariant |int16| == |input|
      invariant forall k :: 0 <= k < i ==> int16[k] == Pcm.CaptureSample(input[k])
    {
      int16 := int16[i := Pcm.CaptureSample(input[i])];
      i := i + 1;
    }
    out := int16;
  }

  /** Lines 72-83: the frame sent for one block. Its bytes are twice as many
      as the samples and read back, as Int16 little-endian, as exactly the
      converted samples. */
  function CaptureFrame(block: seq<Pcm.Number>): (f: Frame)
    ensures f.mimeType == MimeType
    ensures |f.data| == 2 * |block|
    ensures |block| == BlockSize ==> |f.data| == 8192
    ensures Pcm.Int16View(f.data) == Success(Converted(block))
  {
    Pcm.DecodeEncode(Converted(block));
    Frame(MimeType, Pcm.EncodeLE(Converted(block)))
  }

  /** The frame of the corrected conversion: the same type and size as the
      frame the source sends, reading back as the clamped samples. */
  function CaptureFrameClamped(block: seq<Pcm.Number>): (f: Frame)
    ensures f.mimeType == MimeType
    ensures |f.data| == 2 * |block|
    ensures |block| == BlockSize ==> |f.data| == 8192
    ensures Pcm.Int16View(f.data) == Success(Clamped(block))
  {
    Pcm.DecodeEncode(Clamped(block));
    Frame(MimeType, Pcm.EncodeLE(Clamped(block)))
  }

  /** The correction only changes blocks that reach full scale: a block
      strictly inside (-1, 1) is sent exactly as the source sends it. */
  lemma SameFrameInsideFullScale(block: seq<Pcm.Number>)
    requires InsideFullScale(block)
    ensures Clamped(block) == Converted(block)
    ensures CaptureFrameClamped(block) == CaptureFrame(block)
  {
    forall i | 0 <= i < |block|
      ensures Clamped(block)[i] == Converted(block)[i]
    {
      assert Pcm.CaptureSampleClamped(block[i]) == Pcm.CaptureSample(block[i]);
    }
  }

  /** The frames sent for a run of captured blocks: one per block, in
      capture order (each send is chained on the same resolved session
      promise, so the sends run in the order the blocks were captured). */
  function CaptureStream(blocks: seq<seq<Pcm.Number>>): (frames: seq<Frame>)
    ensures |frames| == |blocks|
    ensures forall i :: 0 <= i < |blocks| ==> frames[i] == CaptureFrame(blocks[i])
  {
    if |blocks| == 0 then [] else [CaptureFrame(blocks[0])] + CaptureStream(blocks[1..])
  }

  /** The same stream under the corrected, saturating conversion. */
  function CaptureStreamClamped(blocks: seq<seq<Pcm.Number>>): (frames: seq<Frame>)
    ensures |frames| == |blocks|
    ensures forall i :: 0 <= i < |blocks| ==> frames[i] == CaptureFrameClamped(blocks[i])
  {
    if |blocks| == 0 then [] else [CaptureFrameClamped(blocks[0])] + CaptureStreamClamped(blocks[1..])
  }

  function Flatten<T>(xs: seq<seq<T>>): seq<T> {
    if |xs| == 0 then [] else xs[0] + Flatten(xs[1..])
  }

  function Payloads(frames: seq<Frame>): seq<seq<Pcm.Byte>> {
    seq(|frames|, i requires 0 <= i < |frames| => frames[i].data)
  }

  lemma {:induction false} EncodeAppend(a: seq<Pcm.Int16>, b: seq<Pcm.Int16>)
    ensures Pcm.EncodeLE(a + b) == Pcm.EncodeLE(a) + Pcm.EncodeLE(b)
    decreases |a|
  {
    if |a| > 0 {
      var u := Pcm.Unsigned(a[0]);
      assert (a + b)[0] == a[0] && (a + b)[1..] == a[1..] + b;
      EncodeAppend(a[1..], b);
      assert Pcm.EncodeLE(a + b) == [u % 256, u / 256] + Pcm.EncodeLE(a[1..] + b);
      assert Pcm.EncodeLE(a) == [u % 256, u / 256] + Pcm.EncodeLE(a[1..]);
      assert [u % 256, u / 256] + (Pcm.EncodeLE(a[1..]) + Pcm.EncodeLE(b))
          == ([u % 256, u / 256] + Pcm.EncodeLE(a[1..])) + Pcm.EncodeLE(b);
    } else {
      assert a + b == b;
    }
  }

  /** The as-written conversion of every block, block by block. */
  function ConvertedAll(blocks: seq<seq<Pcm.Number>>): (r: seq<seq<Pcm.Int16>>)
    ensures |r| == |blocks|
  {
    seq(|blocks|, i requires 0 <= i < |blocks| => Converted(blocks[i]))
  }

  /** The corrected conversion of every block, block by block. */
  function ClampedAll(blocks: seq<seq<Pcm.Number>>): (r: seq<seq<Pcm.Int16>>)
    ensures |r| == |blocks|
  {
    seq(|blocks|, i requires 0 <= i < |blocks| => Clamped(blocks[i]))
  }

  /** The byte buffer of every block of samples, block by block. */
  function EncodeAll(xs: seq<seq<Pcm.Int16>>): (r: seq<seq<Pcm.Byte>>)
    ensures |r| == |xs|
  {
    seq(|xs|, i requires 0 <= i < |xs| => Pcm.EncodeLE(xs[i]))
  }

  /** Encoding blocks one by one and concatenating the bytes is encoding
      all their samples at once. */
  lemma {:induction false} EncodeFlatten(xs: seq<seq<Pcm.Int16>>)
    ensures Flatten(EncodeAll(xs)) == Pcm.EncodeLE(Flatten(xs))
    decreases |xs|
  {
    if |xs| > 0 {
      var rest := xs[1..];
      EncodeFlatten(rest);
      assert EncodeAll(xs)[1..] == EncodeAll(rest);
      EncodeAppend(xs[0], Flatten(rest));
    }
  }

  /** The payload of each frame the source sends is the encoding of its
      block's as-written conversion. */
  lemma StreamPayloads(blocks: seq<seq<Pcm.Number>>)
    ensures Payloads(CaptureStream(blocks)) == EncodeAll(ConvertedAll(blocks))
  {
    var frames := CaptureStream(blocks);
    forall i | 0 <= i < |blocks|
      ensures Payloads(frames)[i] == EncodeAll(ConvertedAll(blocks))[i]
    {
      assert frames[i] == CaptureFrame(blocks[i]);
    }
  }

  /** The same for the corrected stream. */
  lemma ClampedStreamPayloads(blocks: seq<seq<Pcm.Number>>)
    ensures Payloads(CaptureStreamClamped(blocks)) == EncodeAll(ClampedAll(blocks))
  {
    var frames := CaptureStreamClamped(blocks);
    forall i | 0 <= i < |blocks|
      ensures Payloads(frames)[i] == EncodeAll(ClampedAll(blocks))[i]
    {
      assert frames[i] == CaptureFrameClamped(blocks[i]);
    }
  }

  /** Reading the concatenated bytes of all frames the source sends gives
      the converted samples of all blocks in capture order: nothing is
      dropped or reordered. */
  lemma StreamPreservesOrder(blocks: seq<seq<Pcm.Number>>)
    ensures Flatten(Payloads(CaptureStream(blocks))) == Pcm.EncodeLE(Flatten(ConvertedAll(blocks)))
  {
    StreamPayloads(blocks);
    EncodeFlatten(ConvertedAll(blocks));
  }

  /** The same ordering guarantee for the corrected stream. */
  lemma ClampedStreamPreservesOrder(blocks: seq<seq<Pcm.Number>>)
    ensures Flatten(Payloads(CaptureStreamClamped(blocks))) == Pcm.EncodeLE(Flatten(ClampedAll(blocks)))
  {
    ClampedStreamPayloads(blocks);
    EncodeFlatten(ClampedAll(blocks));
  }
}

=== FILE: chat.dfy ===
/** The text chat (components/ChatInterface.tsx): the welcome message, the
    guarded send, the history handed to the model, and the single reply
    appended afterwards. Clock readings (`Date.now()`) are inputs. */
module Chat {
  import opened Wrappers
  import Js
  import opened Types

  datatype Part = Part(text: string)

  /** One history entry sent with a request. */
  datatype Turn = Turn(role: string, parts: seq<Part>)

  datatype Request = Request(history: seq<Turn>, message: string)

  datatype State = State(messages: seq<ChatMessage>, input: string, loading: bool)

  const Initial: State := State([], "", false)

  const FallbackReply: string := "I couldn't understand that, please try again."
  const ErrorReply: string := "Sorry, I encountered an error. Please try again."

  /** Lines 20-29: the welcome message is put in only when the list is empty. */
  function Welcome(s: State, welcomeText: string, now: int): (r: State)
    ensures |s.messages| == 0 ==> r.messages == [ChatMessage("1", "model", welcomeText, now)]
    ensures |s.messages| > 0 ==> r == s
    ensures r.input == s.input && r.loading == s.loading
  {
    if |s.messages| == 0 then s.(messages := [ChatMessage("1", "model", welcomeText, now)]) else s
  }

  /** Lines 45-48: the history: one entry per message in the same order, the
      role "model" kept and every other role sent as "user", each with the
      message text as its only part. */
  function History(messages: seq<ChatMessage>): (h: seq<Turn>)
    ensures |h| == |messages|
    ensures forall i :: 0 <= i < |h| ==>
              && (h[i].role == "model" <==> messages[i].role == "model")
              && (h[i].role == "model" || h[i].role == "user")
              && h[i].parts == [Part(messages[i].text)]
  {
    seq(|messages|, i requires 0 <= i < |messages| =>
      Turn(if messages[i].role == "model" then "model" else "user", [Part(messages[i].text)]))
  }

  /** The history of a longer conversation extends the history of a shorter
      one. */
  lemma HistoryAppend(a: seq<ChatMessage>, b: seq<ChatMessage>)
    ensures History(a + b) == History(a) + History(b)
  {
    var h := History(a + b);
    forall i | 0 <= i < |h|
      ensures h[i] == (History(a) + History(b))[i]
    {
      if i >= |a| {
        assert (a + b)[i] == b[i - |a|];
      }
    }
  }

  /** Lines 35-50: a send. Whitespace-only input (what `!input.trim()`
      tests, see `SendGuardIsTrim`), or a request in flight, makes it a
      no-op. Otherwise the user message is appended, the input cleared,
      loading set, and the request carries the history of the list as it was
      before the new message. */
  function Send(s: State, now: nat): (r: (State, Option<Request>))
    ensures Js.AllWhitespace(s.input) || s.loading ==> r == (s, None)
    ensures !Js.AllWhitespace(s.input) && !s.loading ==>
              && r.0.messages == s.messages + [ChatMessage(Js.Decimal(now), "user", s.input, now)]
              && r.0.input == "" && r.0.loading
              && r.1 == Some(Request(History(s.messages), s.input))
  {
    if Js.AllWhitespace(s.input) || s.loading then (s, None)
    else
      var user := ChatMessage(Js.Decimal(now), "user", s.input, now);
      (State(s.messages + [user], "", true), Some(Request(History(s.messages), s.input)))
  }

  /** The guard of line 37 in its own terms: a send does something exactly
      when the trimmed input is non-empty and no reply is pending. */
  lemma SendGuardIsTrim(s: State, now: nat)
    ensures Send(s, now).1.Some? <==> Js.Trim(s.input) != "" && !s.loading
    ensures Send(s, now).1.None? ==> Send(s, now).0 == s
  {
    Js.TrimEmptyIffBlank(s.input);
  }

  /** Lines 52-63: the outcome of the request (the reply text, which may be
      undefined, or a thrown error). Exactly one model message is appended,
      with the fallback text for an empty reply and a fixed text for an
      error, and loading is cleared either way. */
  function Receive(s: State, outcome: Result<Option<string>, string>, now: nat): (r: State)
    ensures |r.messages| == |s.messages| + 1 && r.messages[..|s.messages|] == s.messages
    ensures r.messages[|s.messages|].role == "model"
    ensures outcome.Success? ==> r.messages[|s.messages|].text == Js.OrElse(outcome.value, FallbackReply)
    ensures outcome.Failure? ==> r.messages[|s.messages|].text == ErrorReply
    ensures !r.loading && r.input == s.input
  {
    match outcome
    case Success(text) =>
      s.(messages := s.messages + [ChatMessage(Js.Decimal(now + 1), "model", Js.OrElse(text, FallbackReply), now)],
         loading := false)
    case Failure(_) =>
      s.(messages := s.messages + [ChatMessage(Js.Decimal(now), "model", ErrorReply, now)],
         loading := false)
  }

  /** After one full exchange the next request's history is the previous
      history plus the user turn and the model turn, in that order. */
  lemma ExchangeExtendsHistory(s: State, now: nat, outcome: Result<Option<string>, string>, later: nat, next: string)
    requires !Js.AllWhitespace(s.input) && !s.loading
    requires !Js.AllWhitespace(next)
    ensures var (s1, req) := Send(s, now);
            var s2 := Receive(s1, outcome, later);
            var reply := if outcome.Success? then Js.OrElse(outcome.value, FallbackReply) else ErrorReply;
            Send(s2.(input := next), later).1
              == Some(Request(History(s.messages) + [Turn("user", [Part(s.input)]), Turn("model", [Part(reply)])], next))
  {
    var user := ChatMessage(Js.Decimal(now), "user", s.input, now);
    var s1 := Send(s, now).0;
    assert s1 == State(s.messages + [user], "", true);
    var s2 := Receive(s1, outcome, later);
    var bot := s2.messages[|s1.messages|];
    assert s2.messages == s.messages + [user, bot];
    var s3 := s2.(input := next);
    assert !s3.loading && s3.input == next;
    assert Send(s3, later).1 == Some(Request(History(s2.messages), next));
    HistoryAppend(s.messages, [user, bot]);
    assert History([user, bot]) == [Turn("user", [Part(s.input)]), Turn("model", [Part(bot.text)])];
  }
}

=== FILE: dashboard.dfy ===
/** The farmer dashboard (components/Dashboard.tsx): the crop list behind the
    market-price card, the profile form and its save button. Random draws are
    inputs; the yield estimate and the weather card are not modelled. */
module Dashboard {
  import opened Wrappers
  import Js
  import opened Types

  /** The crops shown when the profile names none. */
  const DefaultCrops: seq<string> := ["Maize", "Cassava", "Yam"]

  /** `map(c => c.trim())`. */
  function TrimAll(pieces: seq<string>): (ts: seq<string>)
    ensures |ts| == |pieces|
    ensures forall i :: 0 <= i < |ts| ==> ts[i] == Js.Trim(pieces[i]) && Js.IsTrimmed(ts[i])
  {
    seq(|pieces|, i requires 0 <= i < |pieces| => Js.Trim(pieces[i]))
  }

  /** `filter(c => c.length > 0)` over the elements from position `from` on. */
  function NonEmptyFrom(ts: seq<string>, from: nat): (r: seq<string>)
    requires from <= |ts|
    ensures |r| <= |ts| - from
    ensures forall i :: 0 <= i < |r| ==> r[i] != "" && r[i] in ts[from..]
    decreases |ts| - from
  {
    if from == |ts| then []
    else
      var rest := NonEmptyFrom(ts, from + 1);
      assert forall x :: x in ts[from + 1..] ==> x in ts[from..];
      (if ts[from] == "" then [] else [ts[from]]) + rest
  }

  /** Trimming keeps pieces free of the separator: each trimmed piece is a
      slice of its piece. */
  lemma TrimmedPiecesClean(pieces: seq<string>)
    requires forall j :: 0 <= j < |pieces| ==> ',' !in pieces[j]
    ensures forall j :: 0 <= j < |pieces| ==> Js.IsTrimmed(TrimAll(pieces)[j]) && ',' !in TrimAll(pieces)[j]
  {
    var ts := TrimAll(pieces);
    forall j | 0 <= j < |pieces|
      ensures ',' !in ts[j]
    {
      var p := pieces[j];
      var i := Js.TrimStartIndex(p);
      Js.TrimIsSlice(p);
      assert ts[j] == p[i..i + |ts[j]|];
      assert forall k :: 0 <= k < |ts[j]| ==> ts[j][k] == p[i + k];
    }
  }

  /** Line 57: the crop list of a profile. An empty field gives the default
      list; otherwise the comma-separated pieces, trimmed, without the empty
      ones: never more than there are pieces, none empty, none padded with
      whitespace, none holding a comma. */
  function ParseCrops(crops: string): (r: seq<string>)
    ensures crops == "" ==> r == DefaultCrops
    ensures crops != "" ==> |r| <= Js.Count(crops, ',') + 1
    ensures crops != "" ==> forall i :: 0 <= i < |r| ==> r[i] != "" && Js.IsTrimmed(r[i]) && ',' !in r[i]
  {
    if crops == "" then DefaultCrops
    else
      var pieces := Js.Split(crops, ',');
      var ts := TrimAll(pieces);
      TrimmedPiecesClean(pieces);
      assert ts[0..] == ts;
      NonEmptyFrom(ts, 0)
  }

  /** The positions, from `from` on, of the elements the filter keeps. */
  function KeptFrom(ts: seq<string>, from: nat): (idx: seq<nat>)
    requires from <= |ts|
    ensures forall k :: 0 <= k < |idx| ==> from <= idx[k] < |ts|
    decreases |ts| - from
  {
    if from == |ts| then []
    else (if ts[from] == "" then [] else [from]) + KeptFrom(ts, from + 1)
  }

  /** `r` lists the elements of `ts` at the strictly increasing positions
      `idx`, and those positions are exactly the non-empty elements. */
  predicate SelectsInOrder(r: seq<string>, ts: seq<string>, idx: seq<nat>) {
    && |idx| == |r|
    && (forall k :: 0 <= k < |idx| ==> idx[k] < |ts| && r[k] == ts[idx[k]])
    && (forall k, l :: 0 <= k < l < |idx| ==> idx[k] < idx[l])
    && (forall j :: 0 <= j < |ts| ==> (ts[j] != "" <==> j in idx))
  }

  /** The k-th survivor is the element at the k-th kept position. */
  lemma {:induction false} NonEmptyPicksKept(ts: seq<string>, from: nat)
    requires from <= |ts|
    ensures |KeptFrom(ts, from)| == |NonEmptyFrom(ts, from)|
    ensures forall k :: 0 <= k < |KeptFrom(ts, from)| ==>
              NonEmptyFrom(ts, from)[k] == ts[KeptFrom(ts, from)[k]]
    decreases |ts| - from
  {
    if from < |ts| {
      NonEmptyPicksKept(ts, from + 1);
    }
  }

  /** Kept positions strictly increase. */
  lemma {:induction false} KeptIncreasing(ts: seq<string>, from: nat)
    requires from <= |ts|
    ensures forall k, l :: 0 <= k < l < |KeptFrom(ts, from)| ==>
              KeptFrom(ts, from)[k] < KeptFrom(ts, from)[l]
    decreases |ts| - from
  {
    if from < |ts| {
      KeptIncreasing(ts, from + 1);
    }
  }

  /** A position from `from` on is kept exactly when its element is non-empty. */
  lemma {:induction false} KeptExactly(ts: seq<string>, from: nat)
    requires from <= |ts|
    ensures forall j :: from <= j < |ts| ==> (ts[j] != "" <==> j in KeptFrom(ts, from))
    decreases |ts| - from
  {
    if from < |ts| {
      KeptExactly(ts, from + 1);
    }
  }

  /** The crops of a non-empty field are its trimmed pieces that have
      content, in the order written, and nothing else. */
  lemma ParseCropsKeepsOrder(crops: string)
    requires crops != ""
    ensures SelectsInOrder(ParseCrops(crops), TrimAll(Js.Split(crops, ',')), KeptFrom(TrimAll(Js.Split(crops, ',')), 0))
  {
    var ts := TrimAll(Js.Split(crops, ','));
    NonEmptyPicksKept(ts, 0);
    KeptIncreasing(ts, 0);
    KeptExactly(ts, 0);
  }

  lemma {:induction false} NonEmptyOfBlank(ts: seq<string>, from: nat)
    requires from <= |ts|
    requires forall i :: 0 <= i < |ts| ==> ts[i] == ""
    ensures NonEmptyFrom(ts, from) == []
    decreases |ts| - from
  {
    if from < |ts| {
      NonEmptyOfBlank(ts, from + 1);
    }
  }

  /** A field holding only commas and whitespace gives no crops at all, not
      the default list. */
  lemma OnlySeparatorsGiveNoCrops(crops: string)
    requires crops != ""
    requires forall k :: 0 <= k < |crops| ==> crops[k] == ',' || Js.IsWhitespace(crops[k])
    ensures ParseCrops(crops) == []
  {
    var pieces := Js.Split(crops, ',');
    var ts := TrimAll(pieces);
    forall i | 0 <= i < |pieces|
      ensures ts[i] == ""
    {
      forall k | 0 <= k < |pieces[i]|
        ensures Js.IsWhitespace(pieces[i][k])
      {
        assert pieces[i][k] in crops;
      }
      Js.TrimEmptyIffBlank(pieces[i]);
    }
    NonEmptyOfBlank(ts, 0);
  }

  datatype Trend = Up | Down

  /** A market-price row; the price is shown as "₦<priceThousands>,000/T". */
  datatype MarketRow = MarketRow(crop: string, priceThousands: int, trend: Trend)

  /** The two random draws of one row: `Math.floor(Math.random() * 200)`
      and `Math.random() > 0.5`. */
  datatype Draw = Draw(price: int, rising: bool)

  predicate ValidDraws(draws: seq<Draw>) {
    forall i :: 0 <= i < |draws| ==> 0 <= draws[i].price < 200
  }

  /** Lines 59-63: one row per crop, in crop order, priced between 300 and
      499 thousand. */
  function MarketRows(crops: seq<string>, draws: seq<Draw>): (rows: seq<MarketRow>)
    requires |draws| == |crops| && ValidDraws(draws)
    ensures |rows| == |crops|
    ensures forall i :: 0 <= i < |rows| ==>
              rows[i].crop == crops[i] && 300 <= rows[i].priceThousands <= 499
              && (rows[i].trend == Up <==> draws[i].rising)
  {
    seq(|crops|, i requires 0 <= i < |crops| =>
      MarketRow(crops[i], draws[i].price + 300, if draws[i].rising then Up else Down))
  }

  /** The price text of a row. */
  function PriceLabel(row: MarketRow): (l: string)
    requires row.priceThousands >= 0
    ensures |l| >= 8 && l[..1] == "₦" && l[|l| - 6..] == ",000/T"
  {
    "₦" + Js.Decimal(row.priceThousands) + ",000/T"
  }

  /** The label of every generated row is the naira sign, three digits that
      denote the price, and ",000/T". */
  lemma PriceLabelShowsPrice(row: MarketRow)
    requires 300 <= row.priceThousands <= 499
    ensures var l := PriceLabel(row);
            |l| == 10 && l[..1] == "₦" && l[4..] == ",000/T"
            && Js.AllDigits(l[1..4]) && Js.DecimalValue(l[1..4]) == row.priceThousands
  {
    var n := row.priceThousands;
    var d := Js.Decimal(n);
    Js.DecimalRoundTrip(n);
    assert d == Js.Decimal(n / 10) + [Js.Digit(n % 10)];
    assert Js.Decimal(n / 10) == Js.Decimal(n / 100) + [Js.Digit(n / 10 % 10)];
    assert |d| == 3;
    var l := PriceLabel(row);
    assert l[1..4] == d;
  }

  /** The inputs of the profile form, by their `name` attribute. */
  datatype Field = Name | Phone | Address | FarmLocation | FarmSize | Crops

  function Get(p: UserProfile, f: Field): string {
    match f
    case Name => p.name
    case Phone => p.phone
    case Address => p.address
    case FarmLocation => p.farmLocation
    case FarmSize => p.farmSize
    case Crops => p.crops
  }

  function Put(p: UserProfile, f: Field, v: string): (r: UserProfile)
    ensures Get(r, f) == v
    ensures forall g :: g != f ==> Get(r, g) == Get(p, g)
  {
    match f
    case Name => p.(name := v)
    case Phone => p.(phone := v)
    case Address => p.(address := v)
    case FarmLocation => p.(farmLocation := v)
    case FarmSize => p.(farmSize := v)
    case Crops => p.(crops := v)
  }

  datatype State = State(profile: UserProfile, saved: bool, editing: bool, rates: seq<MarketRow>)

  const EmptyProfile: UserProfile := UserProfile("", "", "", "", "", "")

  /** Lines 32-43: on mount, the stored profile if there is one; otherwise
      the empty profile with the form open. Either way the market rows follow
      the profile's crops. */
  function Mount(stored: Option<UserProfile>, draws: seq<Draw>): (r: State)
    requires |draws| == |ParseCrops(stored.GetOr(EmptyProfile).crops)| && ValidDraws(draws)
    ensures r.profile == stored.GetOr(EmptyProfile)
    ensures r.editing <==> stored.None?
    ensures !r.saved
    ensures |r.rates| == |ParseCrops(r.profile.crops)|
    ensures forall i :: 0 <= i < |r.rates| ==> r.rates[i].crop == ParseCrops(r.profile.crops)[i]
    ensures stored.None? ==> |r.rates| == 3 && forall i :: 0 <= i < 3 ==> r.rates[i].crop == DefaultCrops[i]
  {
    var p := stored.GetOr(EmptyProfile);
    State(p, false, stored.None?, MarketRows(ParseCrops(p.crops), draws))
  }

  /** Lines 74-77: typing into one input changes that field only and clears
      the saved notice. */
  function HandleChange(s: State, f: Field, v: string): (r: State)
    ensures Get(r.profile, f) == v
    ensures forall g :: g != f ==> Get(r.profile, g) == Get(s.profile, g)
    ensures !r.saved
    ensures r.editing == s.editing && r.rates == s.rates
  {
    s.(profile := Put(s.profile, f, v), saved := false)
  }

  /** Lines 79-85: saving shows the notice, closes the form and recomputes
      the market rows from the profile's crops. */
  function HandleSave(s: State, draws: seq<Draw>): (r: State)
    requires |draws| == |ParseCrops(s.profile.crops)| && ValidDraws(draws)
    ensures r.saved && !r.editing
    ensures r.profile == s.profile
    ensures |r.rates| == |ParseCrops(s.profile.crops)|
    ensures forall i :: 0 <= i < |r.rates| ==> r.rates[i].crop == ParseCrops(s.profile.crops)[i]
  {
    s.(saved := true, editing := false, rates := MarketRows(ParseCrops(s.profile.crops), draws))
  }

  /** Line 85: three seconds after a save the notice disappears. */
  function SavedTimeout(s: State): (r: State)
    ensures !r.saved && r.profile == s.profile && r.editing == s.editing && r.rates == s.rates
  {
    s.(saved := false)
  }

  /** Line 114: the profile button opens or closes the form. */
  function ToggleEditing(s: State): (r: State)
    ensures r.editing != s.editing && r.profile == s.profile && r.saved == s.saved
    ensures r.rates == s.rates
  {
    s.(editing := !s.editing)
  }

  /** Line 93: a position fix fills in the farm location, given as the
      formatted "lat, lng" text; nothing else changes, not even the saved
      notice. */
  function Geolocated(s: State, location: string): (r: State)
    ensures Get(r.profile, FarmLocation) == location
    ensures forall g :: g != FarmLocation ==> Get(r.profile, g) == Get(s.profile, g)
    ensures r.saved == s.saved && r.editing == s.editing && r.rates == s.rates
  {
    s.(profile := Put(s.profile, FarmLocation, location))
  }

  /** Editing a field and then restoring its old value gives back the
      profile: updates touch one field only. */
  lemma ChangeThenRestore(s: State, f: Field, v: string)
    ensures HandleChange(HandleChange(s, f, v), f, Get(s.profile, f)).profile == s.profile
  {
    var p := HandleChange(HandleChange(s, f, v), f, Get(s.profile, f)).profile;
    assert forall g :: Get(p, g) == Get(s.profile, g);
    assert p == UserProfile(Get(p, Name), Get(p, Phone), Get(p, Address), Get(p, FarmLocation), Get(p, FarmSize), Get(p, Crops));
  }
}

=== FILE: gemini_service.dfy ===
/** The calls to the hosted model (services/geminiService.ts), reduced to
    what they do with the response: each remote reply is an input, and each
    call returns its value or the error it throws. */
module GeminiService {
  import opened Wrappers
  import Js
  import opened Types

  /** Why a call throws. */
  datatype ServiceError =
    | MissingApiKey            // "API_KEY is not set in environment variables"
    | NoResponse               // "No response from AI"
    | InvalidJson              // JSON.parse rejects the text
    | NoAudio                  // "No audio generated"
    | ImageGenerationFailed    // "Image generation failed"
    | Remote(message: string)  // the SDK call itself threw

  /** The parts of a GenerateContentResponse the application reads. Every
      level may be missing. */
  datatype Source = Source(title: Option<string>, uri: Option<string>)
  datatype Chunk = Chunk(maps: Option<Source>, web: Option<Source>)
  datatype Metadata = Metadata(groundingChunks: Option<seq<Chunk>>)
  datatype InlineData = InlineData(data: Option<string>)
  datatype ContentPart = ContentPart(inlineData: Option<InlineData>)
  datatype Content = Content(parts: Option<seq<ContentPart>>)
  datatype Candidate = Candidate(groundingMetadata: Option<Metadata>, content: Option<Content>)
  datatype Response = Response(text: Option<string>, candidates: Option<seq<Candidate>>)

  /** A string property is truthy when present and non-empty. */
  predicate Truthy(s: Option<string>) {
    s.Some? && s.value != ""
  }

  /** Lines 5-11: `getClient` throws without an API key. */
  function GetClient(apiKey: Option<string>): (r: Result<string, ServiceError>)
    ensures r.Success? <==> Truthy(apiKey)
    ensures r.Failure? ==> r.error == MissingApiKey
  {
    if Truthy(apiKey) then Success(apiKey.value) else Failure(MissingApiKey)
  }

  /** Line 18: the base64 payload of a data URL, `split(',')[1]`: present
      exactly when the URL has a comma, and free of commas. */
  function DataPayload(dataUrl: string): (r: Option<string>)
    ensures r.Some? <==> ',' in dataUrl
    ensures r.Some? ==> ',' !in r.value
  {
    var pieces := Js.Split(dataUrl, ',');
    Js.CountZeroIffAbsent(dataUrl, ',');
    if |pieces| >= 2 then Some(pieces[1]) else None
  }

  /** The payload is the text between the first and the second comma. */
  lemma DataPayloadBetweenCommas(header: string, payload: string, rest: string)
    requires ',' !in header && ',' !in payload
    ensures DataPayload(header + "," + payload) == Some(payload)
    ensures DataPayload(header + "," + payload + "," + rest) == Some(payload)
  {
    Js.SplitAtFirst(header, payload, ',');
    Js.SplitWithoutSeparator(payload, ',');
    Js.SplitAtFirst(header, payload + "," + rest, ',');
    Js.SplitAtFirst(payload, rest, ',');
    assert header + "," + payload + "," + rest == header + [','] + (payload + [','] + rest);
  }

  /** The first chunk list of the first candidate, if every level is there. */
  function GroundingChunks(resp: Response): (r: Option<seq<Chunk>>)
    ensures r.Some? ==> resp.candidates.Some? && |resp.candidates.value| > 0
                        && resp.candidates.value[0].groundingMetadata.Some?
  {
    if resp.candidates.Some? && |resp.candidates.value| > 0
       && resp.candidates.value[0].groundingMetadata.Some? then
      resp.candidates.value[0].groundingMetadata.value.groundingChunks
    else None
  }

  /** `c.maps || c.web`: the maps entry whenever there is one. */
  function PickSource(c: Chunk): (r: Option<Source>)
    ensures r.Some? <==> c.maps.Some? || c.web.Some?
    ensures c.maps.Some? ==> r == c.maps
    ensures c.maps.None? ==> r == c.web
  {
    if c.maps.Some? then c.maps else c.web
  }

  predicate Usable(src: Option<Source>) {
    src.Some? && Truthy(src.value.title) && Truthy(src.value.uri)
  }

  /** Lines 150-152: the places of a chunk list. Each chunk gives at most one
      place, every place has a title and a link, and a chunk list splits
      into the places of its parts in order (see `PlacesAppend`). */
  function ValidPlaces(chunks: seq<Chunk>): (r: seq<Place>)
    ensures |r| <= |chunks|
    ensures forall i :: 0 <= i < |r| ==> r[i].title != "" && r[i].uri != ""
  {
    if |chunks| == 0 then []
    else
      var src := PickSource(chunks[0]);
      (if Usable(src) then [Place(src.value.title.value, src.value.uri.value)] else [])
      + ValidPlaces(chunks[1..])
  }

  /** Places keep chunk order: the places of two runs of chunks are the
      places of the first run followed by those of the second. */
  lemma {:induction false} PlacesAppend(a: seq<Chunk>, b: seq<Chunk>)
    ensures ValidPlaces(a + b) == ValidPlaces(a) + ValidPlaces(b)
    decreases |a|
  {
    if |a| == 0 {
      assert a + b == b;
    } else {
      assert (a + b)[0] == a[0] && (a + b)[1..] == a[1..] + b;
      PlacesAppend(a[1..], b);
    }
  }

  /** A single chunk gives a place exactly when its chosen entry has a title
      and a link; a maps entry lacking either hides the web entry. */
  lemma OneChunk(c: Chunk)
    ensures ValidPlaces([c]) != [] <==> Usable(PickSource(c))
    ensures c.maps.Some? && !Usable(c.maps) ==> ValidPlaces([c]) == []
    ensures c.maps.None? && Usable(c.web) ==> ValidPlaces([c]) == [Place(c.web.value.title.value, c.web.value.uri.value)]
  {
    assert [c][1..] == [];
  }

  const MapsFallbackText: string := "I found some locations for you."

  /** Lines 127-158: the map search. Without a key it throws before the
      request; otherwise the text falls back when empty, and the places come
      from the first candidate's chunks, none when any level is missing. */
  function FindAgroServices(apiKey: Option<string>, reply: Result<Response, string>): (r: Result<MapResult, ServiceError>)
    ensures !Truthy(apiKey) ==> r == Failure(MissingApiKey)
    ensures Truthy(apiKey) && reply.Failure? ==> r == Failure(Remote(reply.error))
    ensures r.Success? ==> reply.Success? && r.value.text == Js.OrElse(reply.value.text, MapsFallbackText)
    ensures r.Success? && GroundingChunks(reply.value).None? ==> r.value.places == []
    ensures r.Success? && GroundingChunks(reply.value).Some? ==>
              r.value.places == ValidPlaces(GroundingChunks(reply.value).value)
  {
    var _ :- GetClient(apiKey);
    match reply
    case Failure(e) => Failure(Remote(e))
    case Success(resp) =>
      var places := match GroundingChunks(resp)
        case Some(chunks) => ValidPlaces(chunks)
        case None => [];
      Success(MapResult(Js.OrElse(resp.text, MapsFallbackText), places))
  }

  /** The `thinkingConfig` of a request. */
  datatype ThinkingConfig = ThinkingConfig(thinkingBudget: nat)

  /** The fixed response schema of the analysis (lines 26-40). */
  datatype Schema = AnalysisSchema

  datatype AnalysisConfig = AnalysisConfig(responseMimeType: string, responseSchema: Schema, thinkingConfig: Option<ThinkingConfig>)

  const ThinkingBudget: nat := 32768

  /** Lines 61-68: the analysis always asks for JSON in the schema, and adds
      a thinking budget of 32768 exactly when deep thinking is on. */
  function AnalysisRequestConfig(useThinking: bool): (c: AnalysisConfig)
    ensures c.responseMimeType == "application/json" && c.responseSchema == AnalysisSchema
    ensures c.thinkingConfig.Some? <==> useThinking
    ensures c.thinkingConfig.Some? ==> c.thinkingConfig.value.thinkingBudget == ThinkingBudget
  {
    AnalysisConfig("application/json", AnalysisSchema,
                   if useThinking then Some(ThinkingConfig(ThinkingBudget)) else None)
  }

  /** What `JSON.parse` makes of the analysis text, as far as the page can
      tell: a syntax error, a falsy value (`null`, `false`, `0` or `""`),
      or a result object. The `as AnalysisResult` cast checks nothing, so a
      falsy value is returned like any other. */
  datatype Parsed = NotJson | FalsyJson | ResultJson(analysis: AnalysisResult)

  /** Lines 44-88: the analysis. It fails without a key, when the call
      fails, when the text is empty, and when the text is not JSON;
      otherwise it returns the parsed value, None standing for a falsy one. */
  function AnalyzePestImage(apiKey: Option<string>, reply: Result<Response, string>,
                            parsed: Parsed): (r: Result<Option<AnalysisResult>, ServiceError>)
    ensures !Truthy(apiKey) ==> r == Failure(MissingApiKey)
    ensures Truthy(apiKey) && reply.Failure? ==> r == Failure(Remote(reply.error))
    ensures Truthy(apiKey) && reply.Success? && !Truthy(reply.value.text) ==> r == Failure(NoResponse)
    ensures Truthy(apiKey) && reply.Success? && Truthy(reply.value.text) && parsed.NotJson? ==> r == Failure(InvalidJson)
    ensures r.Success? <==> Truthy(apiKey) && reply.Success? && Truthy(reply.value.text) && !parsed.NotJson?
    ensures r.Success? ==> (r.value.Some? <==> parsed.ResultJson?)
    ensures r.Success? && parsed.ResultJson? ==> r.value == Some(parsed.analysis)
  {
    var _ :- GetClient(apiKey);
    match reply
    case Failure(e) => Failure(Remote(e))
    case Success(resp) =>
      if !Truthy(resp.text) then Failure(NoResponse)
      else
        match parsed
        case NotJson => Failure(InvalidJson)
        case FalsyJson => Success(None)
        case ResultJson(a) => Success(Some(a))
  }

  /** `candidates?.[0]?.content?.parts?.[0]`. */
  function FirstPart(resp: Response): (r: Option<ContentPart>)
    ensures r.Some? ==> && resp.candidates.Some? && |resp.candidates.value| > 0
                        && resp.candidates.value[0].content.Some?
                        && resp.candidates.value[0].content.value.parts.Some?
                        && |resp.candidates.value[0].content.value.parts.value| > 0
                        && r.value == resp.candidates.value[0].content.value.parts.value[0]
  {
    if resp.candidates.Some? && |resp.candidates.value| > 0
       && resp.candidates.value[0].content.Some?
       && resp.candidates.value[0].content.value.parts.Some?
       && |resp.candidates.value[0].content.value.parts.value| > 0 then
      Some(resp.candidates.value[0].content.value.parts.value[0])
    else None
  }

  /** `…?.inlineData?.data` of the first part. */
  function FirstInlineData(resp: Response): (r: Option<string>)
    ensures r.Some? ==> && FirstPart(resp).Some? && FirstPart(resp).value.inlineData.Some?
                        && r == FirstPart(resp).value.inlineData.value.data
  {
    var part := FirstPart(resp);
    if part.Some? && part.value.inlineData.Some? then part.value.inlineData.value.data else None
  }

  /** Lines 161-180: speech synthesis returns the first part's audio data,
      and throws when it is missing or empty. */
  function GenerateSpeech(apiKey: Option<string>, reply: Result<Response, string>): (r: Result<string, ServiceError>)
    ensures !Truthy(apiKey) ==> r == Failure(MissingApiKey)
    ensures Truthy(apiKey) && reply.Success? && !Truthy(FirstInlineData(reply.value)) ==> r == Failure(NoAudio)
    ensures r.Success? <==> Truthy(apiKey) && reply.Success? && Truthy(FirstInlineData(reply.value))
    ensures r.Success? ==> Some(r.value) == FirstInlineData(reply.value) && r.value != ""
  {
    var _ :- GetClient(apiKey);
    match reply
    case Failure(e) => Failure(Remote(e))
    case Success(resp) =>
      var audio := FirstInlineData(resp);
      if !Truthy(audio) then Failure(NoAudio) else Success(audio.value)
  }

  const PngPrefix: string := "data:image/png;base64,"

  /** Lines 207-211: an edited image comes back as a PNG data URL. Only the
      presence of `inlineData` is checked, so missing data reads as the text
      "undefined". */
  function EditCropImage(apiKey: Option<string>, reply: Result<Response, string>): (r: Result<string, ServiceError>)
    ensures !Truthy(apiKey) ==> r == Failure(MissingApiKey)
    ensures r.Success? <==> Truthy(apiKey) && reply.Success? && FirstPart(reply.value).Some?
                            && FirstPart(reply.value).value.inlineData.Some?
    ensures r.Success? ==>
              var data := FirstPart(reply.value).value.inlineData.value.data;
              r.value == PngPrefix + data.GetOr("undefined")
    ensures Truthy(apiKey) && reply.Success? && r.Failure? ==> r.error == ImageGenerationFailed
  {
    var _ :- GetClient(apiKey);
    match reply
    case Failure(e) => Failure(Remote(e))
    case Success(resp) =>
      var part := FirstPart(resp);
      if part.Some? && part.value.inlineData.Some? then
        Success(PngPrefix + part.value.inlineData.value.data.GetOr("undefined"))
      else Failure(ImageGenerationFailed)
  }

  /** The payload read back from an edited image's data URL is the data the
      model sent (base64 text has no commas). */
  lemma EditedImageRoundTrip(apiKey: Option<string>, reply: Result<Response, string>)
    requires EditCropImage(apiKey, reply).Success?
    requires var d := FirstPart(reply.value).value.inlineData.value.data; d.Some? && ',' !in d.value
    ensures DataPayload(EditCropImage(apiKey, reply).value)
         == FirstPart(reply.value).value.inlineData.value.data
  {
    var d := FirstPart(reply.value).value.inlineData.value.data.value;
    DataPayloadBetweenCommas("data:image/png;base64", d, "");
    assert PngPrefix + d == "data:image/png;base64" + "," + d;
  }

  const TipFallback: string := "Keep your farm clean to prevent pests."
  const TipErrorFallback: string := "Regularly scout your fields for early signs of damage."

  /** Lines 91-104: the quick tip never throws: the reply text, a fixed
      fallback for an empty reply, and another for any error (a missing key
      included). */
  function GetQuickTip(apiKey: Option<string>, reply: Result<Response, string>): (r: string)
    ensures r != ""
    ensures !Truthy(apiKey) || reply.Failure? ==> r == TipErrorFallback
    ensures Truthy(apiKey) && reply.Success? ==> r == Js.OrElse(reply.value.text, TipFallback)
  {
    if !Truthy(apiKey) then TipErrorFallback
    else match reply
      case Failure(_) => TipErrorFallback
      case Success(resp) => Js.OrElse(resp.text, TipFallback)
  }

  /** Lines 107-124: the chat call returns the reply text as is (possibly
      undefined), and throws without a key or when the call fails. */
  function ChatWithExpert(apiKey: Option<string>, reply: Result<Option<string>, string>): (r: Result<Option<string>, ServiceError>)
    ensures !Truthy(apiKey) ==> r == Failure(MissingApiKey)
    ensures Truthy(apiKey) ==> r == (match reply case Success(t) => Success(t) case Failure(e) => Failure(Remote(e)))
  {
    var _ :- GetClient(apiKey);
    match reply
    case Success(t) => Success(t)
    case Failure(e) => Failure(Remote(e))
  }
}

=== FILE: js.dfy ===
/** The few String operations of the JavaScript runtime the application uses:
    `trim`, `split` on one character, `join`, `toLowerCase`, number-to-string,
    and the `||` fallback on a string that may be `undefined`. A string is a
    sequence of characters. */
module Js {
  import opened Wrappers

  /** The WhiteSpace and LineTerminator characters that String.prototype.trim
      strips (sections 12.2 and 12.3 of ECMA-262): tab, line feed, vertical tab,
      form feed, carriage return, the space separators of Unicode category Zs,
      the byte order mark and the two Unicode line and paragraph separators. */
  predicate IsWhitespace(c: char) {
    var n := c as int;
    || (0x09 <= n <= 0x0D)
    || n == 0x20 || n == 0xA0 || n == 0x1680
    || (0x2000 <= n <= 0x200A)
    || n == 0x2028 || n == 0x2029 || n == 0x202F || n == 0x205F
    || n == 0x3000 || n == 0xFEFF
  }

  predicate AllWhitespace(s: string) {
    forall i :: 0 <= i < |s| ==> IsWhitespace(s[i])
  }

  /** Neither the first nor the last character is whitespace. */
  predicate IsTrimmed(s: string) {
    s == [] || (!IsWhitespace(s[0]) && !IsWhitespace(s[|s| - 1]))
  }

  /** The index of the first character at or after `i` that is not
      whitespace, or `|s|` when there is none. */
  function SkipBlank(s: string, i: nat): (r: nat)
    requires i <= |s|
    ensures i <= r <= |s|
    ensures forall k :: i <= k < r ==> IsWhitespace(s[k])
    ensures r == |s| || !IsWhitespace(s[r])
    decreases |s| - i
  {
    if i < |s| && IsWhitespace(s[i]) then SkipBlank(s, i + 1) else i
  }

  /** The index just after the last character in `s[lo..j]` that is not
      whitespace, or `lo` when there is none. */
  function SkipBlankBack(s: string, lo: nat, j: nat): (r: nat)
    requires lo <= j <= |s|
    ensures lo <= r <= j
    ensures forall k :: r <= k < j ==> IsWhitespace(s[k])
    ensures r == lo || !IsWhitespace(s[r - 1])
    decreases j - lo
  {
    if j > lo && IsWhitespace(s[j - 1]) then SkipBlankBack(s, lo, j - 1) else j
  }

  /** Where the result of `trim` starts in `s`. */
  function TrimStartIndex(s: string): (i: nat)
    ensures i <= |s|
  {
    SkipBlank(s, 0)
  }

  /** Where the result of `trim` ends in `s`. */
  function TrimEndIndex(s: string): (e: nat)
    ensures TrimStartIndex(s) <= e <= |s|
  {
    SkipBlankBack(s, TrimStartIndex(s), |s|)
  }

  /** String.prototype.trim: the text between the leading and the trailing
      whitespace. Neither end of the result is whitespace. */
  function Trim(s: string): (r: string)
    ensures IsTrimmed(r) && |r| <= |s|
  {
    s[TrimStartIndex(s)..TrimEndIndex(s)]
  }

  /** The result of `trim` is a contiguous piece of `s`, and what is cut off
      on either side of it is whitespace. */
  lemma TrimIsSlice(s: string)
    ensures var i := TrimStartIndex(s);
            i + |Trim(s)| <= |s| && Trim(s) == s[i..i + |Trim(s)|]
            && AllWhitespace(s[..i]) && AllWhitespace(s[i + |Trim(s)|..])
  {
    var i := TrimStartIndex(s);
    var e := TrimEndIndex(s);
    assert |Trim(s)| == e - i;
    forall k | 0 <= k < i
      ensures IsWhitespace(s[..i][k])
    {
      assert s[..i][k] == s[k];
    }
    forall k | 0 <= k < |s| - e
      ensures IsWhitespace(s[e..][k])
    {
      assert s[e..][k] == s[e + k];
    }
  }

  /** A string trims to empty exactly when it is all whitespace. */
  lemma TrimEmptyIffBlank(s: string)
    ensures Trim(s) == [] <==> AllWhitespace(s)
  {
    var i := TrimStartIndex(s);
    var e := TrimEndIndex(s);
    if e == i {
      forall k | 0 <= k < |s|
        ensures IsWhitespace(s[k])
      {
        if k >= i {
          assert e <= k < |s|;
        }
      }
    } else {
      assert !IsWhitespace(s[i]);
    }
  }

  /** Trimming a trimmed string changes nothing, so `trim` is idempotent. */
  lemma TrimIdempotent(s: string)
    ensures Trim(Trim(s)) == Trim(s)
  {
    TrimOfTrimmed(Trim(s));
  }

  lemma TrimOfTrimmed(s: string)
    requires IsTrimmed(s)
    ensures Trim(s) == s
  {
    if |s| > 0 {
      assert TrimStartIndex(s) == 0;
      assert TrimEndIndex(s) == |s|;
    }
  }

  /** Number of occurrences of `c` in `s`. */
  function Count(s: string, c: char): nat {
    if |s| == 0 then 0 else (if s[0] == c then 1 else 0) + Count(s[1..], c)
  }

  /** String.prototype.split with a one-character separator: one piece more
      than there are separators, and no piece contains the separator
      (`"".split(",")` is `[""]`, `",".split(",")` is `["", ""]`). Together
      with `JoinSplit` this fixes the pieces uniquely. */
  function Split(s: string, sep: char): (r: seq<string>)
    ensures |r| == Count(s, sep) + 1
    ensures forall i :: 0 <= i < |r| ==> sep !in r[i]
    ensures forall i, k :: 0 <= i < |r| && 0 <= k < |r[i]| ==> r[i][k] in s
    decreases |s|
  {
    if |s| == 0 then
      [""]
    else
      var rest := Split(s[1..], sep);
      if s[0] == sep then [""] + rest
      else [[s[0]] + rest[0]] + rest[1..]
  }

  /** Array.prototype.join: the pieces with `sep` between neighbours; the
      empty array joins to the empty string. */
  function Join(parts: seq<string>, sep: string): string {
    if |parts| == 0 then ""
    else if |parts| == 1 then parts[0]
    else parts[0] + sep + Join(parts[1..], sep)
  }

  /** A join starts with the first piece and ends with the last one. */
  lemma {:induction false} JoinEnds(parts: seq<string>, sep: string)
    requires |parts| > 0
    ensures var r := Join(parts, sep);
            |r| >= |parts[0]| && r[..|parts[0]|] == parts[0]
    ensures var r := Join(parts, sep); var last := parts[|parts| - 1];
            |r| >= |last| && r[|r| - |last|..] == last
    decreases |parts|
  {
    if |parts| > 1 {
      JoinEnds(parts[1..], sep);
      var rest := Join(parts[1..], sep);
      assert Join(parts, sep) == parts[0] + sep + rest;
      assert parts[1..][|parts[1..]| - 1] == parts[|parts| - 1];
    }
  }

  /** An empty first piece contributes only the separator. */
  lemma JoinEmptyFirst(rest: seq<string>, sep: string)
    requires |rest| >= 1
    ensures Join([""] + rest, sep) == sep + Join(rest, sep)
  {
    assert ([""] + rest)[1..] == rest;
  }

  /** A character prepended to the first piece comes first in the join. */
  lemma JoinExtendFirst(c: char, rest: seq<string>, sep: string)
    requires |rest| >= 1
    ensures Join([[c] + rest[0]] + rest[1..], sep) == [c] + Join(rest, sep)
  {
    var r := [[c] + rest[0]] + rest[1..];
    assert r[1..] == rest[1..];
    if |rest| > 1 {
      assert Join(r, sep) == [c] + rest[0] + sep + Join(rest[1..], sep);
    }
  }

  /** Joining the pieces of a split with the separator gives back the string. */
  lemma {:induction false} JoinSplit(s: string, sep: char)
    ensures Join(Split(s, sep), [sep]) == s
    decreases |s|
  {
    if |s| > 0 {
      var rest := Split(s[1..], sep);
      JoinSplit(s[1..], sep);
      if s[0] == sep {
        JoinEmptyFirst(rest, [sep]);
      } else {
        JoinExtendFirst(s[0], rest, [sep]);
      }
      assert s == [s[0]] + s[1..];
    }
  }

  lemma {:induction false} CountZeroIffAbsent(s: string, c: char)
    ensures Count(s, c) == 0 <==> c !in s
    decreases |s|
  {
    if |s| > 0 {
      CountZeroIffAbsent(s[1..], c);
      assert s == [s[0]] + s[1..];
    }
  }

  /** A string without the separator splits into itself alone. */
  lemma SplitWithoutSeparator(s: string, sep: char)
    requires sep !in s
    ensures Split(s, sep) == [s]
  {
    CountZeroIffAbsent(s, sep);
    JoinSplit(s, sep);
  }

  /** The first piece of a split is everything before the first separator. */
  lemma {:induction false} SplitAtFirst(a: string, b: string, sep: char)
    requires sep !in a
    ensures Split(a + [sep] + b, sep) == [a] + Split(b, sep)
    decreases |a|
  {
    var s := a + [sep] + b;
    if |a| == 0 {
      assert s == [sep] + b;
      assert s[1..] == b;
    } else {
      assert s[0] == a[0] && s[1..] == a[1..] + [sep] + b;
      SplitAtFirst(a[1..], b, sep);
      assert [a[0]] + a[1..] == a;
    }
  }

  /** ASCII letters map to lower case; every other character is kept. */
  function LowerChar(c: char): char {
    if 'A' <= c <= 'Z' then (c as int + 32) as char else c
  }

  /** String.prototype.toLowerCase, restricted to ASCII letters. */
  function Lower(s: string): (r: string)
    ensures |r| == |s|
    ensures forall i :: 0 <= i < |s| ==> r[i] == LowerChar(s[i])
  {
    if |s| == 0 then [] else [LowerChar(s[0])] + Lower(s[1..])
  }

  /** `s` and `t` differ at most in the case of ASCII letters. */
  predicate SameIgnoringCase(s: string, t: string) {
    |s| == |t| && forall i :: 0 <= i < |s| ==> LowerChar(s[i]) == LowerChar(t[i])
  }

  /** Strings equal up to case lower-case to the same string. */
  lemma LowerIgnoresCase(s: string, t: string)
    requires SameIgnoringCase(s, t)
    ensures Lower(s) == Lower(t)
  {
  }

  function Digit(d: nat): (c: char)
    requires d < 10
    ensures '0' <= c <= '9'
  {
    ('0' as int + d) as char
  }

  predicate AllDigits(s: string) {
    forall i :: 0 <= i < |s| ==> '0' <= s[i] <= '9'
  }

  /** Number.prototype.toString for a non-negative integer: decimal digits
      with no leading zero. */
  function Decimal(n: nat): (r: string)
    ensures |r| >= 1 && AllDigits(r)
    ensures r[0] == '0' ==> n == 0
  {
    if n < 10 then [Digit(n)] else Decimal(n / 10) + [Digit(n % 10)]
  }

  /** The value of a string of decimal digits. */
  function DecimalValue(s: string): nat
    requires AllDigits(s)
  {
    if |s| == 0 then 0 else DecimalValue(s[..|s| - 1]) * 10 + (s[|s| - 1] as int - '0' as int)
  }

  /** The digits of `Decimal(n)` denote `n`: nothing is lost printing a number. */
  lemma {:induction false} DecimalRoundTrip(n: nat)
    ensures DecimalValue(Decimal(n)) == n
  {
    if n >= 10 {
      DecimalRoundTrip(n / 10);
      var r := Decimal(n);
      assert r[..|r| - 1] == Decimal(n / 10);
    }
  }

  /** The JavaScript expression `x || fallback` for a string `x` that may be
      undefined: `x` unless it is undefined or empty. */
  function OrElse(x: Option<string>, fallback: string): (r: string)
    ensures r == fallback || (x.Some? && r == x.value)
    ensures r == fallback <==> (x == None || x.value == "" || x.value == fallback)
  {
    if x.Some? && x.value != "" then x.value else fallback
  }
}

=== FILE: live_session.dfy ===
/** The status line and active flag of the live assistant
    (components/LiveAssistant.tsx): the permission probe on mount,
    `startSession`, the connection callbacks, and the effect that puts the
    idle prompt back whenever the session is not active. */
module LiveSession {

  /** The status line. `TalkToExpert` is the localised idle prompt. */
  datatype Status =
    | TalkToExpert
    | PermissionDenied   // "Microphone permission denied"
    | Connecting         // "Connecting..."
    | Listening          // "Listening..."
    | SessionEnded       // "Session ended"
    | ErrorConnecting    // "Error connecting to expert"
    | ConnectionFailed   // "Connection failed"

  /** The outcome of the microphone permission probe started on mount. */
  datatype Permission = Pending | Granted | Denied

  datatype Session = Session(active: bool, status: Status, permission: Permission)

  const Initial: Session := Session(false, TalkToExpert, Pending)

  /** Everything that can happen to the component, in the order it happens. */
  datatype Signal =
    | PermissionProbed(granted: bool)  // getUserMedia on mount settles
    | StartPressed(hasApiKey: bool)    // the start button is clicked
    | SetupFailed                      // startSession's try block throws after its first await
    | StartFailedAtOnce(hasApiKey: bool) // the button is clicked and the try block throws before
                                         // its first await (an AudioContext constructor, say)
    | Opened                           // onopen
    | Closed                           // onclose
    | Errored                          // onerror
    | LanguageChanged

  /** The handlers themselves, before React re-runs effects. The start button
      is only shown while inactive and is disabled until permission is
      granted, so a press in any other state does nothing. */
  function Handle(s: Session, sig: Signal): (r: Session)
    ensures r.permission != s.permission ==> s.permission == Pending && sig.PermissionProbed?
    // The microphone probe settles a pending permission once: a grant keeps
    // the status, a refusal shows the permission-denied status.
    ensures sig.PermissionProbed? && s.permission == Pending && sig.granted ==>
              r == s.(permission := Granted)
    ensures sig.PermissionProbed? && s.permission == Pending && !sig.granted ==>
              r == s.(permission := Denied, status := PermissionDenied)
    ensures sig.PermissionProbed? && s.permission != Pending ==> r == s
    ensures sig.StartPressed? && (!sig.hasApiKey || s.active || s.permission != Granted) ==> r == s
    ensures sig.StartPressed? && sig.hasApiKey && !s.active && s.permission == Granted ==>
              r.active && r.status == Connecting
    ensures sig == Opened ==> r.status == Listening && r.active == s.active
    ensures sig == Closed ==> !r.active && r.status == SessionEnded
    ensures sig == Errored ==> !r.active && r.status == ErrorConnecting
    ensures sig == SetupFailed ==> !r.active && r.status == ConnectionFailed
    // A throw before the first await runs inside the click handler, so React
    // applies the start and the failure in one render: the active flag ends
    // where it began and only the status changes.
    ensures sig.StartFailedAtOnce? && sig.hasApiKey && !s.active && s.permission == Granted ==>
              r == s.(status := ConnectionFailed)
    ensures sig.StartFailedAtOnce? && (!sig.hasApiKey || s.active || s.permission != Granted) ==> r == s
  {
    match sig
    case PermissionProbed(granted) =>
      if s.permission != Pending then s
      else if granted then s.(permission := Granted)
      else s.(permission := Denied, status := PermissionDenied)
    case StartPressed(hasApiKey) =>
      if s.active || s.permission != Granted || !hasApiKey then s
      else s.(active := true, status := Connecting)
    case SetupFailed => s.(active := false, status := ConnectionFailed)
    case StartFailedAtOnce(hasApiKey) =>
      if s.active || s.permission != Granted || !hasApiKey then s
      else s.(status := ConnectionFailed)
    case Opened => s.(status := Listening)
    case Closed => s.(active := false, status := SessionEnded)
    case Errored => s.(status := ErrorConnecting, active := false)
    case LanguageChanged => s
  }

  /** Lines 35-39: after a render in which the active flag or the language
      changed, an inactive component shows the idle prompt again. */
  function Settle(before: Session, after: Session, languageChanged: bool): (r: Session)
    ensures r.active == after.active && r.permission == after.permission
    ensures (after.active != before.active || languageChanged) && !after.active ==> r.status == TalkToExpert
    ensures after.active == before.active && !languageChanged ==> r == after
  {
    if (after.active != before.active || languageChanged) && !after.active then
      after.(status := TalkToExpert)
    else
      after
  }

  function Step(s: Session, sig: Signal): Session {
    Settle(s, Handle(s, sig), sig == LanguageChanged)
  }

  /** While a session is active, permission was granted and the status is
      "Connecting..." or "Listening...". */
  predicate Consistent(s: Session) {
    s.active ==> s.permission == Granted && (s.status == Connecting || s.status == Listening)
  }

  function Run(s: Session, signals: seq<Signal>): Session
    decreases |signals|
  {
    if |signals| == 0 then s else Run(Step(s, signals[0]), signals[1..])
  }

  /** Every signal in every state has one outcome, and no sequence of
      signals leads to an active session without permission or with an
      ending status. */
  lemma {:induction false} RunKeepsConsistent(s: Session, signals: seq<Signal>)
    requires Consistent(s)
    ensures Consistent(Run(s, signals))
    decreases |signals|
  {
    if |signals| > 0 {
      var s1 := Step(s, signals[0]);
      assert Consistent(s1) by {
        match signals[0]
        case PermissionProbed(_) =>
        case StartPressed(_) =>
        case SetupFailed =>
        case StartFailedAtOnce(_) =>
        case Opened =>
        case Closed =>
        case Errored =>
        case LanguageChanged =>
      }
      RunKeepsConsistent(s1, signals[1..]);
    }
  }

  /** Ending an active session shows "Session ended", "Error connecting to
      expert" or "Connection failed" only until the effect runs: the settled
      status is the idle prompt again. */
  lemma EndStatusIsOverwritten(s: Session, sig: Signal)
    requires s.active
    requires sig == Closed || sig == Errored || sig == SetupFailed
    ensures !Step(s, sig).active && Step(s, sig).status == TalkToExpert
  {
  }

  /** A setup failure thrown before the first await is batched with the
      start, so the active flag never changes, the effect does not run, and
      "Connection failed" stays on screen. */
  lemma SyncSetupFailureStays(s: Session)
    requires !s.active && s.permission == Granted
    ensures Step(s, StartFailedAtOnce(true)) == s.(status := ConnectionFailed)
    ensures Step(s, StartFailedAtOnce(true)).status != Step(s.(active := true), SetupFailed).status
  {
  }

  /** A close arriving when the session is already inactive (after an error,
      say) leaves "Session ended" on screen, since the active flag did not
      change. */
  lemma LateCloseStays(s: Session)
    requires !s.active
    ensures Step(s, Closed).status == SessionEnded
  {
  }

  /** Starting with a key from an idle, permitted component connects; a
      denied permission keeps the start button disabled for good. */
  lemma StartNeedsPermission(s: Session, key: bool)
    requires !s.active
    ensures Step(s, StartPressed(key)).active <==> key && s.permission == Granted
    ensures Step(s, StartPressed(key)).active ==> Step(s, StartPressed(key)).status == Connecting
  {
  }
}

=== FILE: pcm.dfy ===
/** Linear PCM as the live session and the spoken diagnosis handle it: the
    ToInt16 conversion a store into an Int16Array performs, the little-endian
    byte layout of an Int16Array's buffer, and the mono AudioBuffer built from
    decoded samples. */
module Pcm {
  import opened Wrappers

  type Byte = b: int | 0 <= b < 256
  type Int16 = v: int | -32768 <= v < 32768

  /** Sample rate of the speech the remote endpoint sends, and of the
      AudioBuffers built from it. */
  const OutputRate: nat := 24000

  /** Sample rate the microphone is captured at. */
  const InputRate: nat := 16000

  /** ToInt16 of section 7.1.8 of ECMA-262 on an integer: reduce modulo 2^16
      and map the upper half to the negatives. */
  function WrapInt16(n: int): (r: Int16)
    ensures (r - n) % 65536 == 0
    ensures -32768 <= n < 32768 ==> r == n
  {
    var m := n % 65536;
    if m >= 32768 then m - 65536 else m
  }

  /** A JavaScript number: a finite value (taken exactly), NaN, or an infinity. */
  datatype Number = Finite(value: real) | NaN | Infinity(negative: bool)

  /** Truncation toward zero: the integer part of `x`. */
  function Trunc(x: real): (r: int)
    ensures x >= 0.0 ==> r >= 0 && r as real <= x < r as real + 1.0
    ensures x < 0.0 ==> r <= 0 && r as real - 1.0 < x <= r as real
  {
    if x >= 0.0 then x.Floor else -((-x).Floor)
  }

  lemma TruncMonotone(x: real, y: real)
    requires x <= y
    ensures Trunc(x) <= Trunc(y)
  {
  }

  /** ToInt16 on a number: NaN and the infinities give 0, a finite value is
      truncated toward zero and then wrapped. */
  function ToInt16(x: Number): (r: Int16)
    ensures x.Finite? ==> (r - Trunc(x.value)) % 65536 == 0
    ensures x.Finite? && -32768.0 < x.value < 32768.0 ==> r == Trunc(x.value)
    ensures !x.Finite? ==> r == 0
  {
    match x
    case Finite(v) => WrapInt16(Trunc(v))
    case _ => 0
  }

  /** `x * 32768` on a number; the scaling by a power of two is exact. */
  function Scale(x: Number): Number {
    match x
    case Finite(v) => Finite(v * 32768.0)
    case NaN => NaN
    case Infinity(neg) => Infinity(neg)
  }

  /** One captured sample as the application converts it: `x * 32768` stored
      into an Int16Array element, with no clamping. */
  function CaptureSample(x: Number): (r: Int16)
    ensures x.Finite? ==> (r - Trunc(x.value * 32768.0)) % 65536 == 0
    ensures x.Finite? && -1.0 < x.value < 1.0 ==> r == Trunc(x.value * 32768.0)
    ensures !x.Finite? ==> r == 0
  {
    ToInt16(Scale(x))
  }

  /** Inside the open interval (-1, 1) the conversion is plain truncation of
      `x * 32768`: no wrap-around happens. */
  lemma CaptureSampleInRange(v: real)
    requires -1.0 < v < 1.0
    ensures CaptureSample(Finite(v)) == Trunc(v * 32768.0)
    ensures v >= 0.0 ==> CaptureSample(Finite(v)) >= 0
    ensures v <= 0.0 ==> CaptureSample(Finite(v)) <= 0
  {
  }

  /** A full-scale positive sample wraps around to the most negative value. */
  lemma FullScaleWraps()
    ensures CaptureSample(Finite(1.0)) == -32768
    ensures CaptureSample(Finite(-1.0)) == -32768
  {
    assert Trunc(32768.0) == 32768;
    assert Trunc(-32768.0) == -32768;
  }

  function Clamp16(n: int): Int16 {
    if n < -32768 then -32768 else if n > 32767 then 32767 else n
  }

  /** The conversion the capture path evidently intends: `x * 32768`
      truncated and saturated to the Int16 range instead of wrapped. */
  function CaptureSampleClamped(x: Number): (r: Int16)
    ensures x.Finite? && -1.0 < x.value < 1.0 ==> r == CaptureSample(x)
  {
    match x
    case Finite(v) => Clamp16(Trunc(v * 32768.0))
    case NaN => 0
    case Infinity(neg) => if neg then -32768 else 32767
  }

  /** The saturating conversion keeps the sign of every sample and the order
      between any two samples; at full scale it gives the extreme values. */
  lemma ClampedPreservesOrder(v: real, w: real)
    requires v <= w
    ensures CaptureSampleClamped(Finite(v)) <= CaptureSampleClamped(Finite(w))
    ensures v >= 0.0 ==> CaptureSampleClamped(Finite(v)) >= 0
    ensures w <= 0.0 ==> CaptureSampleClamped(Finite(w)) <= 0
    ensures CaptureSampleClamped(Finite(1.0)) == 32767
    ensures CaptureSampleClamped(Finite(-1.0)) == -32768
  {
    TruncMonotone(v * 32768.0, w * 32768.0);
    assert Trunc(32768.0) == 32768;
    assert Trunc(-32768.0) == -32768;
  }

  /** The two's-complement bit pattern of a sample, as an unsigned 16-bit value. */
  function Unsigned(v: Int16): (u: int)
    ensures 0 <= u < 65536
    ensures WrapInt16(u) == v
  {
    v % 65536
  }

  /** The sample stored little-endian in bytes `lo`, `hi`. */
  function SampleAt(lo: Byte, hi: Byte): (v: Int16)
    ensures Unsigned(v) == lo + 256 * hi
  {
    WrapInt16(lo + 256 * hi)
  }

  /** The bytes of an Int16Array's buffer: each sample as two bytes, low byte
      first. */
  function EncodeLE(samples: seq<Int16>): (r: seq<Byte>)
    ensures |r| == 2 * |samples|
    ensures forall i :: 0 <= i < |samples| ==>
              r[2 * i] == Unsigned(samples[i]) % 256 && r[2 * i + 1] == Unsigned(samples[i]) / 256
  {
    if |samples| == 0 then []
    else
      var u := Unsigned(samples[0]);
      var rest := EncodeLE(samples[1..]);
      EncodeShift(samples, rest);
      [u % 256, u / 256] + rest
  }

  /** The bytes of the first sample followed by the bytes of the others
      hold every sample at twice its index. */
  lemma EncodeShift(samples: seq<Int16>, rest: seq<Byte>)
    requires |samples| >= 1 && |rest| == 2 * (|samples| - 1)
    requires forall i :: 0 <= i < |samples| - 1 ==>
               rest[2 * i] == Unsigned(samples[1..][i]) % 256 && rest[2 * i + 1] == Unsigned(samples[1..][i]) / 256
    ensures var u := Unsigned(samples[0]);
            forall i :: 0 <= i < |samples| ==>
              ([u % 256, u / 256] + rest)[2 * i] == Unsigned(samples[i]) % 256
              && ([u % 256, u / 256] + rest)[2 * i + 1] == Unsigned(samples[i]) / 256
  {
    var u := Unsigned(samples[0]);
    var r := [u % 256, u / 256] + rest;
    forall i | 0 <= i < |samples|
      ensures r[2 * i] == Unsigned(samples[i]) % 256 && r[2 * i + 1] == Unsigned(samples[i]) / 256
    {
      if i > 0 {
        var j := i - 1;
        assert samples[1..][j] == samples[i];
        assert r[2 * i] == rest[2 * j] && r[2 * i + 1] == rest[2 * j + 1];
      }
    }
  }

  /** The samples an Int16Array views in a buffer of even length. */
  function DecodeLE(bytes: seq<Byte>): (r: seq<Int16>)
    requires |bytes| % 2 == 0
    ensures |r| == |bytes| / 2
    ensures forall i :: 0 <= i < |r| ==> r[i] == SampleAt(bytes[2 * i], bytes[2 * i + 1])
  {
    if |bytes| == 0 then []
    else
      var rest := DecodeLE(bytes[2..]);
      DecodeShift(bytes, rest);
      [SampleAt(bytes[0], bytes[1])] + rest
  }

  /** The samples after the first pair, read from the rest of the buffer,
      are the samples of the whole buffer shifted by one. */
  lemma DecodeShift(bytes: seq<Byte>, rest: seq<Int16>)
    requires |bytes| >= 2 && |rest| == (|bytes| - 2) / 2
    requires forall i :: 0 <= i < |rest| ==> rest[i] == SampleAt(bytes[2..][2 * i], bytes[2..][2 * i + 1])
    ensures forall i :: 0 <= i < |rest| + 1 ==>
              ([SampleAt(bytes[0], bytes[1])] + rest)[i] == SampleAt(bytes[2 * i], bytes[2 * i + 1])
  {
    var r := [SampleAt(bytes[0], bytes[1])] + rest;
    forall i | 0 <= i < |r|
      ensures r[i] == SampleAt(bytes[2 * i], bytes[2 * i + 1])
    {
      if i > 0 {
        var j := i - 1;
        assert r[i] == rest[j];
        assert bytes[2..][2 * j] == bytes[2 * i] && bytes[2..][2 * j + 1] == bytes[2 * i + 1];
      }
    }
  }

  /** Why a step of the audio path throws. */
  datatype AudioError =
    | InvalidCharacterError  // atob on text that is not base64
    | RangeError             // an Int16Array over a buffer of odd byte length
    | NotSupportedError      // createBuffer with a length of zero

  /** `new Int16Array(bytes.buffer)`: a buffer whose byte length is not a
      multiple of the element size is rejected with a RangeError. */
  function Int16View(bytes: seq<Byte>): (r: Result<seq<Int16>, AudioError>)
    ensures r.Failure? <==> |bytes| % 2 == 1
    ensures r.Failure? ==> r.error == RangeError
    ensures r.Success? ==> |r.value| == |bytes| / 2
  {
    if |bytes| % 2 == 1 then Failure(RangeError) else Success(DecodeLE(bytes))
  }

  /** One sample survives being split into its two bytes and read back. */
  lemma SampleRoundTrip(v: Int16)
    ensures SampleAt(Unsigned(v) % 256, Unsigned(v) / 256) == v
  {
    var u := Unsigned(v);
    assert u % 256 + 256 * (u / 256) == u;
  }

  /** Two bytes survive being read as one sample and split again. */
  lemma BytesRoundTrip(lo: Byte, hi: Byte)
    ensures Unsigned(SampleAt(lo, hi)) % 256 == lo
    ensures Unsigned(SampleAt(lo, hi)) / 256 == hi
  {
    var u := lo + 256 * hi;
    assert u / 256 == hi;
    assert u % 256 == lo;
  }

  /** Viewing the bytes of encoded samples gives the samples back. */
  lemma DecodeEncode(samples: seq<Int16>)
    ensures Int16View(EncodeLE(samples)) == Success(samples)
  {
    var b := EncodeLE(samples);
    var d := DecodeLE(b);
    forall i | 0 <= i < |samples|
      ensures d[i] == samples[i]
    {
      SampleRoundTrip(samples[i]);
    }
    assert d == samples;
  }

  /** Encoding the samples viewed in an even-length buffer gives the buffer
      back: the layout is a bijection. */
  lemma {:induction false} EncodeDecode(bytes: seq<Byte>)
    requires |bytes| % 2 == 0
    ensures EncodeLE(DecodeLE(bytes)) == bytes
    decreases |bytes|
  {
    if |bytes| > 0 {
      var d := DecodeLE(bytes);
      var rest := DecodeLE(bytes[2..]);
      assert d == [SampleAt(bytes[0], bytes[1])] + rest;
      assert d[1..] == rest;
      EncodeDecode(bytes[2..]);
      BytesRoundTrip(bytes[0], bytes[1]);
      assert EncodeLE(d) == [bytes[0], bytes[1]] + bytes[2..];
      assert bytes == [bytes[0], bytes[1]] + bytes[2..];
    }
  }

  /** A mono or multi-channel buffer of samples at a given rate; the float
      channel data (each sample over 32768) is represented by the samples. */
  datatype AudioBuffer = AudioBuffer(channels: nat, sampleRate: nat, samples: seq<Int16>)

  /** Decodes speech bytes into the 24 kHz mono buffer both players build:
      the Int16Array view, then `createBuffer(1, length, 24000)`, which
      rejects a zero length. */
  function DecodeSpeech(bytes: seq<Byte>): (r: Result<AudioBuffer, AudioError>)
    ensures |bytes| % 2 == 1 ==> r == Failure(RangeError)
    ensures |bytes| == 0 ==> r == Failure(NotSupportedError)
    ensures r.Success? <==> |bytes| % 2 == 0 && |bytes| >= 2
    ensures r.Success? ==> r.value.channels == 1 && r.value.sampleRate == OutputRate
                           && EncodeLE(r.value.samples) == bytes
  {
    var samples :- Int16View(bytes);
    if |samples| == 0 then Failure(NotSupportedError)
    else
      EncodeDecode(bytes);
      Success(AudioBuffer(1, OutputRate, samples))
  }
}

=== FILE: playback.dfy ===
/** The live assistant's playback of the remote speaker (the `onmessage`
    callback of components/LiveAssistant.tsx). Time is counted in ticks of the
    24 kHz output clock, so a buffer of n samples lasts exactly n ticks and
    the audio clock only ever shows whole ticks. */
module Playback {
  import opened Wrappers
  import Pcm

  type Tick = nat

  /** An abstract AudioBufferSourceNode. */
  type Handle = nat

  /** A source scheduled to play over the ticks [start, end). */
  datatype Slot = Slot(handle: Handle, start: Tick, end: Tick)

  /** The playback state the callback closes over: the `nextStartTime`
      variable and the `sources` set. `nextHandle` is the next unused handle and
      `timeline` lists the sources scheduled since the last interruption, in
      arrival order; both exist only to state properties. */
  datatype Schedule = Schedule(nextStart: Tick, active: set<Handle>, nextHandle: Handle, timeline: seq<Slot>)

  /** The state when a session starts: `nextStartTime = 0`, no sources. */
  const Initial: Schedule := Schedule(0, {}, 0, [])

  function Handles(t: seq<Slot>): set<Handle> {
    set i | 0 <= i < |t| :: t[i].handle
  }

  /** Scheduled slots are non-empty, carry fresh handles that grow in arrival
      order, never overlap and follow one another in arrival order; the last
      one ends at `nextStart`; every active source has a slot. */
  predicate Valid(s: Schedule) {
    && (forall i :: 0 <= i < |s.timeline| ==>
          s.timeline[i].start < s.timeline[i].end && s.timeline[i].handle < s.nextHandle)
    && (forall i, j :: 0 <= i < j < |s.timeline| ==>
          s.timeline[i].end <= s.timeline[j].start && s.timeline[i].handle < s.timeline[j].handle)
    && (|s.timeline| > 0 ==> s.timeline[|s.timeline| - 1].end == s.nextStart)
    && s.active <= Handles(s.timeline)
  }

  lemma InitialValid()
    ensures Valid(Initial)
  {
  }

  function Max(a: int, b: int): int {
    if a >= b then a else b
  }

  lemma HandlesAppend(t: seq<Slot>, x: Slot)
    ensures Handles(t + [x]) == Handles(t) + {x.handle}
  {
    var u := t + [x];
    forall h | h in Handles(t) ensures h in Handles(u) {
      var i :| 0 <= i < |t| && t[i].handle == h;
      assert u[i] == t[i];
    }
    assert u[|t|] == x;
  }

  /** Lines 108-111: start a new source at `max(clock, nextStartTime)`, move
      `nextStartTime` to its end and add it to the active set. */
  function Enqueue(s: Schedule, clock: Tick, duration: nat): (r: (Schedule, Slot))
    requires duration > 0
    ensures r.1.start >= clock && r.1.start >= s.nextStart
    ensures r.1.start == clock || r.1.start == s.nextStart
    ensures r.1.end == r.1.start + duration == r.0.nextStart
    ensures r.0.active == s.active + {r.1.handle}
    ensures r.0.timeline == s.timeline + [r.1]
    ensures Valid(s) ==> r.1.handle !in s.active && Valid(r.0)
  {
    var start := Max(clock, s.nextStart);
    var slot := Slot(s.nextHandle, start, start + duration);
    var r := Schedule(start + duration, s.active + {s.nextHandle}, s.nextHandle + 1, s.timeline + [slot]);
    HandlesAppend(s.timeline, slot);
    (r, slot)
  }

  /** Lines 116-119: stop every active source, empty the set and reset
      `nextStartTime` to 0. The second component is the set of sources stopped. */
  function Flush(s: Schedule): (r: (Schedule, set<Handle>))
    ensures r.1 == s.active
    ensures r.0.active == {} && r.0.nextStart == 0 && r.0.timeline == []
    ensures r.0.nextHandle == s.nextHandle
    ensures Valid(r.0)
  {
    (Schedule(0, {}, s.nextHandle, []), s.active)
  }

  /** The first part's inline audio: its base64 text, and what `atob` makes of
      it (None when `atob` throws). */
  datatype Payload = Payload(data: string, decoded: Option<seq<Pcm.Byte>>)

  /** A server message: the first part's inline audio, if any, and the
      `interrupted` flag. */
  datatype Message = Message(audio: Option<Payload>, interrupted: bool)

  /** The guard of line 92: inline data present and a non-empty string. */
  predicate HasAudio(m: Message) {
    m.audio.Some? && m.audio.value.data != ""
  }

  /** Lines 94-100: base64 text to a 24 kHz mono buffer. */
  function DecodePayload(p: Payload): (r: Result<Pcm.AudioBuffer, Pcm.AudioError>)
    ensures p.decoded.None? ==> r == Failure(Pcm.InvalidCharacterError)
    ensures p.decoded.Some? && |p.decoded.value| % 2 == 1 ==> r == Failure(Pcm.RangeError)
    ensures p.decoded.Some? && |p.decoded.value| == 0 ==> r == Failure(Pcm.NotSupportedError)
    ensures r.Success? <==> p.decoded.Some? && |p.decoded.value| >= 2 && |p.decoded.value| % 2 == 0
    ensures r.Success? ==> && r.value.channels == 1 && r.value.sampleRate == Pcm.OutputRate
                           && |r.value.samples| > 0 && |r.value.samples| * 2 == |p.decoded.value|
                           && Pcm.EncodeLE(r.value.samples) == p.decoded.value
  {
    match p.decoded
    case None => Failure(Pcm.InvalidCharacterError)
    case Some(bytes) => Pcm.DecodeSpeech(bytes)
  }

  /** What one call of the callback did: the new state, the source it
      started, the sources it stopped, and the error it threw (an exception
      leaves the rest of the callback unexecuted). */
  datatype Reaction = Reaction(schedule: Schedule, started: Option<Slot>, stopped: set<Handle>, thrown: Option<Pcm.AudioError>)

  /** The `onmessage` callback on a message arriving at audio clock `clock`. */
  function OnMessage(s: Schedule, clock: Tick, m: Message): (r: Reaction)
    // A message with no audio and no interruption changes nothing.
    ensures !HasAudio(m) && !m.interrupted ==> r == Reaction(s, None, {}, None)
    // A throw (bad base64, odd byte count, no samples) happens before any
    // state change and also skips the interruption handling.
    ensures r.thrown.Some? ==> r.schedule == s && r.started == None && r.stopped == {}
    ensures r.thrown.Some? <==> HasAudio(m) && DecodePayload(m.audio.value).Failure?
    ensures r.started.Some? <==> HasAudio(m) && r.thrown.None?
    // A frame starts at max(clock, nextStartTime) and lasts one tick per sample.
    ensures r.started.Some? ==>
              var slot := r.started.value;
              && slot.start >= clock && slot.start >= s.nextStart
              && (slot.start == clock || slot.start == s.nextStart)
              && (slot.end - slot.start) * 2 == |m.audio.value.decoded.value|
              && (Valid(s) ==> slot.handle !in s.active)
    ensures r.started.Some? && !m.interrupted ==>
              && r.schedule.nextStart == r.started.value.end
              && r.schedule.active == s.active + {r.started.value.handle}
              && r.stopped == {}
    // An interruption stops every active source, including one just started.
    ensures m.interrupted && r.thrown.None? ==>
              && r.schedule.active == {} && r.schedule.nextStart == 0
              && r.stopped == s.active + (if r.started.Some? then {r.started.value.handle} else {})
    ensures !m.interrupted ==> r.schedule.nextStart >= s.nextStart
    ensures Valid(s) ==> Valid(r.schedule)
  {
    if HasAudio(m) then
      match DecodePayload(m.audio.value)
      case Failure(e) => Reaction(s, None, {}, Some(e))
      case Success(buffer) =>
        var (s1, slot) := Enqueue(s, clock, |buffer.samples|);
        if m.interrupted then
          var (s2, stopped) := Flush(s1);
          Reaction(s2, Some(slot), stopped, None)
        else
          Reaction(s1, Some(slot), {}, None)
    else if m.interrupted then
      var (s2, stopped) := Flush(s);
      Reaction(s2, None, stopped, None)
    else
      Reaction(s, None, {}, None)
  }

  /** Line 113: a source's `onended` deletes it from the set; for a source
      already deleted (say by an interruption) it is a no-op. */
  function OnEnded(s: Schedule, h: Handle): (r: Schedule)
    ensures r.active == s.active - {h}
    ensures r.nextStart == s.nextStart && r.timeline == s.timeline && r.nextHandle == s.nextHandle
    ensures h !in s.active ==> r == s
    ensures Valid(s) ==> Valid(r)
  {
    s.(active := s.active - {h})
  }

  /** One event of the playback trace. */
  datatype Event = Arrive(clock: Tick, message: Message) | Ended(handle: Handle)

  function Step(s: Schedule, e: Event): Schedule {
    match e
    case Arrive(clock, m) => OnMessage(s, clock, m).schedule
    case Ended(h) => OnEnded(s, h)
  }

  function Run(s: Schedule, events: seq<Event>): Schedule
    decreases |events|
  {
    if |events| == 0 then s else Run(Step(s, events[0]), events[1..])
  }

  /** Every trace of arrivals and completions keeps the schedule valid: the
      slots scheduled since the last interruption never overlap and play in
      arrival order, and every active source has one. */
  lemma {:induction false} RunPreservesValid(s: Schedule, events: seq<Event>)
    requires Valid(s)
    ensures Valid(Run(s, events))
    decreases |events|
  {
    if |events| > 0 {
      RunPreservesValid(Step(s, events[0]), events[1..]);
    }
  }

  predicate NoInterrupt(events: seq<Event>) {
    forall i :: 0 <= i < |events| && events[i].Arrive? ==> !events[i].message.interrupted
  }

  /** Without interruptions `nextStartTime` never decreases and earlier slots
      are never rescheduled: the timeline only grows at its end. */
  lemma {:induction false} RunMonotone(s: Schedule, events: seq<Event>)
    requires NoInterrupt(events)
    ensures Run(s, events).nextStart >= s.nextStart
    ensures s.timeline <= Run(s, events).timeline
    decreases |events|
  {
    if |events| > 0 {
      var s1 := Step(s, events[0]);
      assert NoInterrupt(events[1..]) by {
        forall i | 0 <= i < |events[1..]| && events[1..][i].Arrive?
          ensures !events[1..][i].message.interrupted
        {
          assert events[1..][i] == events[i + 1];
        }
      }
      RunMonotone(s1, events[1..]);
    }
  }

  /** Slots from index `from` on each begin exactly where the previous ends. */
  predicate BackToBack(t: seq<Slot>, from: int) {
    forall i :: 0 <= from <= i < |t| - 1 ==> t[i].end == t[i + 1].start
  }

  /** Every frame arrives before the queue runs dry: no later than the end
      of the audio scheduled by the events before it. */
  predicate ArrivesBeforeDrain(s: Schedule, events: seq<Event>) {
    forall i :: 0 <= i < |events| && events[i].Arrive? ==> events[i].clock <= Run(s, events[..i]).nextStart
  }

  /** One event of a burst: an arrival no later than the queue's end (or a
      completion) extends the timeline, and a new slot starts exactly where
      the last one ended. */
  lemma StepGapless(s: Schedule, e: Event)
    requires Valid(s) && |s.timeline| > 0
    requires e.Arrive? ==> !e.message.interrupted && e.clock <= s.nextStart
    ensures Valid(Step(s, e)) && Step(s, e).nextStart >= s.nextStart
    ensures s.timeline <= Step(s, e).timeline
    ensures BackToBack(Step(s, e).timeline, |s.timeline| - 1)
  {
  }

  /** Gapless playback: while audio is queued, frames arriving before the
      queue runs dry are played back to back, each starting exactly where the
      previous one ends. */
  lemma {:induction false} BurstIsGapless(s: Schedule, events: seq<Event>)
    requires Valid(s) && |s.timeline| > 0
    requires NoInterrupt(events) && ArrivesBeforeDrain(s, events)
    ensures s.timeline <= Run(s, events).timeline
    ensures BackToBack(Run(s, events).timeline, |s.timeline| - 1)
    decreases |events|
  {
    if |events| > 0 {
      var s1 := Step(s, events[0]);
      var rest := events[1..];
      assert events[..0] == [];
      StepGapless(s, events[0]);
      assert NoInterrupt(rest) && ArrivesBeforeDrain(s1, rest) by {
        forall i | 0 <= i < |rest|
          ensures rest[i] == events[i + 1]
          ensures Run(s1, rest[..i]) == Run(s, events[..i + 1])
        {
          assert events[..i + 1][1..] == rest[..i];
        }
      }
      BurstIsGapless(s1, rest);
      assert Run(s, events) == Run(s1, rest);
      var t := Run(s1, rest).timeline;
      forall i | |s.timeline| - 1 <= i < |t| - 1
        ensures t[i].end == t[i + 1].start
      {
        if i + 1 < |s1.timeline| {
          assert t[i] == s1.timeline[i] && t[i + 1] == s1.timeline[i + 1];
        }
      }
    }
  }

  /** After an interruption the next frame starts at the clock of its
      arrival: resetting to 0 makes `max(clock, 0)` the clock itself. */
  lemma RestartAtClock(s: Schedule, c1: Tick, interrupt: Message, c2: Tick, frame: Message)
    requires interrupt.interrupted
    requires OnMessage(s, c1, interrupt).thrown.None?
    requires OnMessage(OnMessage(s, c1, interrupt).schedule, c2, frame).started.Some?
    ensures OnMessage(OnMessage(s, c1, interrupt).schedule, c2, frame).started.value.start == c2
  {
  }

  /** Resetting `nextStartTime` to 0 on an interruption schedules the next
      frame exactly as resetting it to the clock at the interruption would,
      because the audio clock never runs backwards. */
  lemma ResetToZeroMatchesResetToClock(s: Schedule, flushClock: Tick, clock: Tick, duration: nat)
    requires flushClock <= clock && duration > 0
    ensures Enqueue(Flush(s).0, clock, duration).1
         == Enqueue(Flush(s).0.(nextStart := flushClock), clock, duration).1
  {
  }

  /** A message carrying `n` > 0 samples of well-formed audio and no interruption. */
  predicate IsFrame(m: Message, n: nat) {
    && HasAudio(m) && !m.interrupted && n > 0
    && m.audio.value.decoded.Some? && |m.audio.value.decoded.value| == 2 * n
  }

  /** Three half-second frames arriving 0.1 s apart play back to back over
      1.5 s; an interruption then silences all three and empties the set. */
  lemma ThreeFramesThenInterrupt(f1: Message, f2: Message, f3: Message)
    requires IsFrame(f1, 12000) && IsFrame(f2, 12000) && IsFrame(f3, 12000)
    ensures
      var r1 := OnMessage(Initial, 0, f1);
      var r2 := OnMessage(r1.schedule, 2400, f2);
      var r3 := OnMessage(r2.schedule, 4800, f3);
      var r4 := OnMessage(r3.schedule, 7200, Message(None, true));
      && r1.started == Some(Slot(0, 0, 12000))
      && r2.started == Some(Slot(1, 12000, 24000))
      && r3.started == Some(Slot(2, 24000, 36000))
      && r3.schedule.nextStart == 36000
      && r4.stopped == {0, 1, 2}
      && r4.schedule.active == {}
  {
    var r1 := OnMessage(Initial, 0, f1);
    assert DecodePayload(f1.audio.value).Success?;
    var r2 := OnMessage(r1.schedule, 2400, f2);
    assert DecodePayload(f2.audio.value).Success?;
    var r3 := OnMessage(r2.schedule, 4800, f3);
    assert DecodePayload(f3.audio.value).Success?;
  }
}

=== FILE: result_card.dfy ===
/** The diagnosis card (components/ResultCard.tsx): the severity badge, the
    spoken summary with its re-entrancy guard, and the feedback form. The
    localised strings are an input. */
module ResultCard {
  import opened Wrappers
  import Js
  import Pcm
  import opened Types

  datatype Level = High | Medium | Low

  /** The `switch (severity.toLowerCase())` shared by both badge functions. */
  function LevelOf(severity: string): (r: Option<Level>)
    ensures r.Some? <==> Js.Lower(severity) in ["high", "medium", "low"]
    ensures r.Some? ==> |severity| == (match r.value case High => 4 case Medium => 6 case Low => 3)
  {
    var l := Js.Lower(severity);
    if l == "high" then Some(High)
    else if l == "medium" then Some(Medium)
    else if l == "low" then Some(Low)
    else None
  }

  /** The level is read without regard to case: a severity names a level
      exactly when it spells that level's name in any mix of cases. */
  lemma LevelIgnoresCase(severity: string)
    ensures LevelOf(severity) == Some(High) <==> Js.SameIgnoringCase(severity, "high")
    ensures LevelOf(severity) == Some(Medium) <==> Js.SameIgnoringCase(severity, "medium")
    ensures LevelOf(severity) == Some(Low) <==> Js.SameIgnoringCase(severity, "low")
  {
    SameIgnoringCaseIffLower(severity, "high");
    SameIgnoringCaseIffLower(severity, "medium");
    SameIgnoringCaseIffLower(severity, "low");
  }

  lemma SameIgnoringCaseIffLower(s: string, key: string)
    requires Js.Lower(key) == key
    ensures Js.SameIgnoringCase(s, key) <==> Js.Lower(s) == key
  {
    if Js.Lower(s) == key {
      assert forall i :: 0 <= i < |s| ==> Js.LowerChar(s[i]) == Js.Lower(s)[i];
    }
  }

  const HighClass: string := "bg-red-100 text-red-800 border-red-200"
  const MediumClass: string := "bg-yellow-100 text-yellow-800 border-yellow-200"
  const LowClass: string := "bg-green-100 text-green-800 border-green-200"
  const OtherClass: string := "bg-gray-100 text-gray-800 border-gray-200"

  /** Lines 21-28: the badge colour. Unknown severities are gray, and since
      the four classes differ, the colour tells the level apart. */
  function SeverityColor(severity: string): (r: string)
    ensures r == OtherClass <==> LevelOf(severity).None?
    ensures r == HighClass <==> LevelOf(severity) == Some(High)
    ensures r == MediumClass <==> LevelOf(severity) == Some(Medium)
    ensures r == LowClass <==> LevelOf(severity) == Some(Low)
  {
    match LevelOf(severity)
    case Some(High) => HighClass
    case Some(Medium) => MediumClass
    case Some(Low) => LowClass
    case None => OtherClass
  }

  /** The localised strings the card uses. */
  datatype Labels = Labels(high: string, medium: string, low: string, severity: string,
                           diagnosisTitle: string, treatmentTitle: string)

  /** Lines 30-37: the badge text: the localised level name, or the
      severity exactly as given when it names no level. */
  function SeverityLabel(t: Labels, severity: string): (r: string)
    ensures LevelOf(severity).None? ==> r == severity
    ensures LevelOf(severity) == Some(High) ==> r == t.high
    ensures LevelOf(severity) == Some(Medium) ==> r == t.medium
    ensures LevelOf(severity) == Some(Low) ==> r == t.low
  {
    match LevelOf(severity)
    case Some(High) => t.high
    case Some(Medium) => t.medium
    case Some(Low) => t.low
    case None => severity
  }

  /** Severities that differ only in case get the same badge; an unknown one
      keeps its own spelling as its label. */
  lemma BadgeIgnoresCase(t: Labels, s1: string, s2: string)
    requires Js.SameIgnoringCase(s1, s2)
    ensures SeverityColor(s1) == SeverityColor(s2)
    ensures LevelOf(s1).Some? ==> SeverityLabel(t, s1) == SeverityLabel(t, s2)
  {
    Js.LowerIgnoresCase(s1, s2);
  }

  /** Line 44: the text read aloud. It opens with the diagnosis title and
      name and ends with the treatments in order, joined by ". ". */
  function SpokenText(t: Labels, result: AnalysisResult): (r: string)
    ensures var head := t.diagnosisTitle + ": " + result.name + ". ";
            |head| <= |r| && r[..|head|] == head
    ensures var tail := Js.Join(result.treatments, ". ");
            |tail| <= |r| && r[|r| - |tail|..] == tail
    // Right after the head come the localised severity label and the
    // description.
    ensures var head := t.diagnosisTitle + ": " + result.name + ". ";
            var sev := t.severity + ": " + SeverityLabel(t, result.severity) + ". " + result.description + ". ";
            |head| + |sev| <= |r| && r[|head|..|head| + |sev|] == sev
  {
    var head := t.diagnosisTitle + ": " + result.name + ". ";
    var middle := t.severity + ": " + SeverityLabel(t, result.severity) + ". " + result.description + ". "
                  + t.treatmentTitle + ": ";
    var tail := Js.Join(result.treatments, ". ");
    var r := head + middle + tail;
    assert r == head + (middle + tail);
    assert r == (head + middle) + tail;
    r
  }

  datatype Vote = Up | Down

  datatype Card = Card(playing: bool, feedback: Option<Vote>, comment: string, submitted: bool)

  const Initial: Card := Card(false, None, "", false)

  /** Lines 39-45: pressing the speaker. While speech is playing nothing
      happens; otherwise `playing` is set before any work and the summary is
      sent for synthesis (the second component). */
  function PressSpeak(c: Card, t: Labels, result: AnalysisResult): (r: (Card, Option<string>))
    ensures c.playing ==> r == (c, None)
    ensures !c.playing ==> r.0.playing && r.1 == Some(SpokenText(t, result))
    ensures r.0.feedback == c.feedback && r.0.comment == c.comment && r.0.submitted == c.submitted
  {
    if c.playing then (c, None) else (c.(playing := true), Some(SpokenText(t, result)))
  }

  /** What came back for a synthesis request: `generateSpeech` threw, or it
      returned base64 text, with what `atob` makes of it (None when it throws). */
  datatype SpeechReply = SpeechFailed | SpeechAudio(decoded: Option<seq<Pcm.Byte>>)

  /** Lines 47-66: the reply is decoded into a 24 kHz mono buffer and
      started; any failure on the way clears `playing`. A buffer is played
      exactly when the reply decodes, and then `playing` stays set until it
      ends. */
  function SpeechArrived(c: Card, reply: SpeechReply): (r: (Card, Option<Pcm.AudioBuffer>))
    ensures r.1.Some? <==> reply.SpeechAudio? && reply.decoded.Some?
                           && |reply.decoded.value| % 2 == 0 && |reply.decoded.value| >= 2
    ensures r.1.Some? ==> r.0 == c && r.1.value.channels == 1 && r.1.value.sampleRate == Pcm.OutputRate
                          && 2 * |r.1.value.samples| == |reply.decoded.value|
    ensures r.1.None? ==> r.0 == c.(playing := false)
  {
    match reply
    case SpeechFailed => (c.(playing := false), None)
    case SpeechAudio(decoded) =>
      if decoded.None? then (c.(playing := false), None)
      else
        match Pcm.DecodeSpeech(decoded.value)
        case Failure(_) => (c.(playing := false), None)
        case Success(buffer) => (c, Some(buffer))
  }

  /** Line 63: the source's `onended` clears `playing`. */
  function PlaybackEnded(c: Card): (r: Card)
    ensures !r.playing && r.(playing := c.playing) == c
  {
    c.(playing := false)
  }

  /** While one summary is being spoken, a second press starts nothing; once
      the reply fails or the playback ends, a press starts a new one. */
  lemma OneSpeechAtATime(c: Card, t: Labels, result: AnalysisResult, reply: SpeechReply)
    requires !c.playing
    ensures var (c1, req1) := PressSpeak(c, t, result);
            && req1.Some?
            && PressSpeak(c1, t, result).1 == None
            && var (c2, played) := SpeechArrived(c1, reply);
               (played.None? ==> PressSpeak(c2, t, result).1.Some?)
               && (played.Some? ==> PressSpeak(c2, t, result).1 == None
                                    && PressSpeak(PlaybackEnded(c2), t, result).1.Some?)
  {
  }

  /** Lines 167 and 177: a thumb picks the vote. */
  function Choose(c: Card, v: Vote): (r: Card)
    ensures r.feedback == Some(v) && r.(feedback := c.feedback) == c
  {
    c.(feedback := Some(v))
  }

  /** Line 192: the comment box. */
  function EditComment(c: Card, text: string): (r: Card)
    ensures r.comment == text && r.(comment := c.comment) == c
  {
    c.(comment := text)
  }

  /** The feedback record logged on submission. */
  datatype Report = Report(isPositive: bool, comment: string, diagnosis: string)

  /** Lines 70-77: submitting logs the vote as positive exactly when it is a
      thumbs-up, with the comment and the diagnosis name, and marks the form
      submitted. */
  function SubmitFeedback(c: Card, result: AnalysisResult): (r: (Card, Report))
    ensures r.1.isPositive <==> c.feedback == Some(Up)
    ensures r.1.comment == c.comment && r.1.diagnosis == result.name
    ensures r.0.submitted && r.0.(submitted := c.submitted) == c
  {
    (c.(submitted := true), Report(c.feedback == Some(Up), c.comment, result.name))
  }
}

=== FILE: types.dfy ===
/** The application's enumerations and records (types.ts). */
module Types {
  import opened Wrappers

  datatype Language = En | Ha | Ig | Yo | Sw

  datatype AppState = Idle | Analyzing | Succeeded | Errored

  datatype Tab = Diagnose | Chat | Live | Maps | Editor | DashboardTab

  /** A diagnosis as the model returns it. `severity` is whatever string the
      response carried; the schema asks for "High", "Medium" or "Low". The
      numeric `confidence` is not modelled. */
  datatype AnalysisResult = AnalysisResult(
    name: string,
    scientificName: string,
    severity: string,
    description: string,
    affectedCrops: seq<string>,
    symptoms: seq<string>,
    treatments: seq<string>,
    prevention: seq<string>)

  /** A chat message; `role` is "user" or "model" by declaration, and any
      string at run time. The Date timestamp is its millisecond value. */
  datatype ChatMessage = ChatMessage(id: string, role: string, text: string, timestamp: int)

  datatype Place = Place(title: string, uri: string)

  datatype MapResult = MapResult(text: string, places: seq<Place>)

  /** The farmer's profile: every field is free text from a form input. */
  datatype UserProfile = UserProfile(
    name: string,
    phone: string,
    address: string,
    farmLocation: string,
    farmSize: string,
    crops: string)

  /** An uploaded file, identified by an opaque handle. */
  datatype FileRef = FileRef(id: nat)

  datatype ImageState = ImageState(file: Option<FileRef>, previewUrl: Option<string>)
}

=== FILE: wrappers.dfy ===
/** Failure-compatible wrappers for values a JavaScript expression may leave
    `undefined` (Option) and for calls that may throw (Result). */
module Wrappers {

  /** A value that may be absent: `undefined`, `null`, or a missing property. */
  datatype Option<+T> = None | Some(value: T) {

    /** The value, or `default` when absent. */
    function GetOr(default: T): T {
      match this
      case Some(v) => v
      case None => default
    }
  }

  /** The outcome of a call that may throw: the returned value, or the thrown error. */
  datatype Result<+R, +E> = Success(value: R) | Failure(error: E) {

    predicate IsFailure() {
      Failure?
    }

    function PropagateFailure<U>(): Result<U, E>
      requires Failure?
    {
      Failure(error)
    }

    function Extract(): R
      requires Success?
    {
      value
    }
  }
}
